=== FILE: README.md ===
# Age of Wars — a Dafny model of the match server and the catalog helpers

Age of Wars is a two-player lane battle served by a Node.js process
(`server.js`). Each player has a base with a turret at one end of a
1000-pixel lane, earns gold over time, buys units from the templates of the
current era, buys upgrades (turret, income, base hp, unit attack, unit
health, unit regeneration), evolves to the next era once enough experience
is gathered, and can cast a special attack. The server advances each match
with `updateGame`: income and cooldowns, turret fire, then every unit in
list order regenerates, picks a target, attacks or walks; dead units and
expired projectiles are pruned and the win check runs. The catalog page
(`script.js`) shortens game descriptions, formats repository names as
titles and keeps a per-browser list of liked games with global counts.

The model is a set of pure functions over immutable datatypes:

| module | file | models |
|---|---|---|
| `Common` | common.dfy | `Option`, `Min`, `Max`, `Abs` |
| `Balance` | balance.dfy | `BALANCE` and `ERAS`, upgrade costs, turret damage and cooldown, income, the unit stat bonus |
| `State` | state.dfy | players, bases, units, projectiles, the match; `createGameState`; the match invariant |
| `Commands` | commands.dfy | `spawnUnit`, `doUpgrade`, `doEvolve`, `doSpecial`, the `action` dispatch |
| `CommandProperties` | command_properties.dfy | what the commands preserve and never do |
| `Targeting` | targeting.dfy | `findTurretTarget`, `findTarget` |
| `Simulation` | simulation.dfy | `updateGame`, as written and with the intended pruning |
| `SimulationProperties` | simulation_properties.dfy | economy, win check, invariant, combat quirks, the pruning counterexample |
| `Binary64` | binary64.dfy | rounding to the nearest IEEE 754 double |
| `StatScaling` | stat_scaling.dfy | the spawn stat multiplier evaluated in doubles |
| `Catalog` | catalog.dfy | `truncateDescription`, `formatGameName`, `String.prototype.trim` |
| `Likes` | likes.dfy | `Likes.get` and `Likes.toggle` |

Gold, experience, hp, positions and cooldowns are `real`. The step length
`dt` (milliseconds) is a parameter of the step. The server-wide unit id
counter is a field of the match, and `CreateGameState` takes its starting
value. The likes server's reply to `toggle` is a parameter: the counts it
sends back, or `None` when the request fails.

The unit loop's pruning is commented "remove the dead" (server.js:406), but
the code removes only the units that were at or below zero hp at the end of
their own iteration (see Findings). Both versions are modelled:
`Simulation.UpdateGameAsWritten` is the code, and `Simulation.UpdateGame` is
the intended step that removes every dead unit.

## Model

| member | source | states |
|---|---|---|
| Balance.Template | server.js:62-108 | A template exists exactly for indices 0 to 2 of every era, and it has a positive cost, hp, damage, range and attack interval. |
| Balance.ParseUpgradeKind | server.js:221-278 | A recognised upgrade type is exactly the wire name of its kind, and an unrecognised string is no kind's name. |
| Balance.UpgradeKindRoundTrip | server.js:221-278 | Every kind parses back from its own wire name, and distinct kinds have distinct names. |
| Balance.UpgradeCostIncreasing | server.js:211-219 | `UpgradeCost` (`getUpgradeCost`): from every reachable level (regen from 0, the rest from 1), the next level costs strictly more. |
| Balance.UpgradeCostPositive | server.js:211-219 | `UpgradeCost` (`getUpgradeCost`): every reachable upgrade costs at least 1 gold, including regen's first level at 45. |
| Balance.UpgradeCostTable | server.js:211-219 | `UpgradeCost` (`getUpgradeCost`), the floor of base price × multiplier^(level − 1), at the prices a player can pay: turret 100/220/484/1064, income 120/300/750/1875, base hp 150/345/793/1825, attack and health 80/160/320/640, regen 45/100/220/484/1064. |
| Balance.TurretCooldownAfterShot | server.js:358-360 | The cooldown after a shot is never below 800 ms and never above 1800 ms. |
| Balance.TurretProgression | server.js:341-360 | A shot deals 15 damage plus 10 per level and 6 per era, between 15 and 79; the cooldown after a shot is 1950 − 150·level ms, so the 800 ms floor is never reached at levels 1 to 5. |
| Balance.ScaledStat | server.js:174-185 | In exact arithmetic, a spawned unit's hp or damage is the floor of `v * (1 + 0.15 * (level - 1))`, that is of `v * (17 + 3 * level) / 20`. |
| Balance.ScaledStatMonotone | server.js:174-185 | At level 1 a stat is the template's own; each attack or health level never lowers it. |
| State.CreateGameStateValid | server.js:124-161 | `CreateGameState` (`createGameState`, with `createPlayerState`): a new match satisfies the invariant; both players have 50 gold, era 0, no experience and a 1500 hp base, with the regen level at 0 and every other upgrade level at 1; there are no units and no projectiles, the clock is at 0, nobody has won and the match is not paused. |
| Commands.SpawnUnit | server.js:164-199 | Spawning succeeds exactly when the index names a template of the player's era and the player can pay. A failed spawn changes nothing. A success deducts the cost and appends a full-hp unit with the next id, the owner's direction, the spawn position 80 or 920, the template's speed, range and attack interval, no attack cooldown, the scaled stats and 2 regen per level. The opponent, the other units and the projectiles are untouched. |
| Commands.DoUpgrade | server.js:221-278 | An upgrade succeeds exactly when the type is recognised, the level is below its maximum and the player can pay. A success deducts exactly that level's price and raises exactly that level by one. It recomputes income for an income upgrade and raises base hp and max hp by 300 for a base hp upgrade. Nothing else changes. |
| Commands.DoEvolve | server.js:280-290 | Evolving succeeds exactly when a next era exists and experience reaches its threshold. It raises the era by one, and experience is not spent. |
| Commands.SpecialHit | server.js:302-307 | Every enemy unit loses 100 hp, and every other unit is unchanged. |
| Commands.DoSpecial | server.js:292-311 | The special succeeds exactly when the player has 250 gold and no cooldown left. It costs 250 gold, sets a 45 s cooldown, takes 100 hp from every enemy unit and 50 hp from the enemy base, and changes nothing else. |
| CommandProperties.SpawnPreservesValid | server.js:164-199 | Spawning keeps a valid match valid: unit ids stay increasing, and gold stays non-negative. |
| CommandProperties.UpgradePreservesValid | server.js:221-278 | Upgrading keeps a valid match valid: levels stay within range, income stays tied to its level, and base hp stays within its maximum. |
| CommandProperties.EvolvePreservesValid | server.js:280-290 | Evolving keeps a valid match valid. |
| CommandProperties.SpecialPreservesValid | server.js:292-311 | Casting the special keeps a valid match valid. |
| CommandProperties.ActionPreservesValid | server.js:516-533 | `ApplyAction` (the socket's `action` dispatch): whatever action a player sends, including an unknown type, a valid match stays valid. |
| CommandProperties.ActionNeverMintsGold | server.js:516-533 | `ApplyAction`: an action never raises the sender's gold. A successful spawn, upgrade or special lowers it strictly. The opponent's gold, experience and era are untouched. |
| CommandProperties.ActionEraMonotone | server.js:280-290 | Eras never go down and rise by at most one per action, only by an evolve with enough experience. |
| CommandProperties.SpecialNotRepeatable | server.js:292-297 | Right after a special, the same player cannot cast it again. |
| CommandProperties.NoEvolveBeyondLastEra | server.js:280-282 | A player in the last era can never evolve. |
| Targeting.NearestFrom | server.js:428-441 | The scan returns a candidate no candidate is nearer than and that is strictly nearer than every earlier candidate, or nothing when no enemy unit is strictly within range. |
| Targeting.FindTurretTarget | server.js:428-441 | The turret picks the nearest enemy unit strictly inside 350, the earliest in the list on a tie, and picks nothing exactly when no enemy unit is that close. |
| Targeting.TurretChoiceUnique | server.js:428-441 | At most one unit is the turret's choice, so the choice is a function of the lane positions and owners. |
| Targeting.FirstInReach | server.js:443-451 | The result is the first enemy unit, in list order, within the attacker's range (inclusive). |
| Targeting.FindTarget | server.js:443-460 | A unit targets an enemy unit exactly when one is within range, and then the first such. It targets the enemy base exactly when no enemy unit is in range and the base is. Otherwise it has no target. |
| Targeting.TargetingIgnoresHp | server.js:428-460 | Changing a unit's hp changes neither the turret's nor any unit's choice, so units already at or below zero hp still draw fire. |
| Simulation.TurretFire | server.js:336-362 | When the cooldown has run out and an enemy unit is within range, the turret's choice loses 15 + 10·(level − 1) + 6·era hp. No other unit changes. The player gains 0.15 experience per point of damage, the cooldown restarts, and a 200 ms projectile is appended. Otherwise nothing changes. |
| Simulation.PlayerPhase | server.js:320-363 | One player's phase adds exactly `income * dt / 1000` gold. It lowers the special cooldown, floored at 0. The turret cooldown is either lowered by `dt` without a floor or reset by a shot. Experience never drops. No unit gains hp or moves, and the opponent is untouched. |
| Simulation.Prepare | server.js:368-376 | Only hp and attack cooldown change at the start of a unit's iteration. A damaged unit with regen heals by `regen * dt / 1000`, capped at its max hp. A positive attack cooldown drops by `dt`, with no floor at zero. |
| Simulation.March | server.js:401-404 | Only the walking unit's position changes. |
| Simulation.StrikeBase | server.js:386-390 | A hit on the base resets the attacker's cooldown and changes no other unit. The owner gains a quarter of the damage in experience and nothing else; the opponent, base included, is untouched. |
| Simulation.StrikeUnit | server.js:391-399 | A hit takes the attacker's damage from the target and resets the attacker's cooldown. The owner gains 0.15 experience per point of damage. It counts a kill and 5 more experience exactly when the target ends at or below zero hp, even if it was already there. The opponent is untouched. |
| Simulation.Act | server.js:378-405 | With no target the unit walks `speed * direction * dt / 16`, and the players are untouched. With a target and its cooldown still running, nothing changes. With the cooldown run out it strikes: the target unit loses the damage, or the owner gains a quarter of it in experience for a base hit, and the cooldown restarts. Only positions, hp, cooldowns, experience and kills change, and with non-negative damage no hp rises. |
| Simulation.UnitStep | server.js:367-410 | One iteration keeps the roster. The unit's own hp is its regenerated hp. Other units neither move nor change cooldown. Only experience and kills change, and valid units stay valid. |
| Simulation.UnitLoop | server.js:366-410 | The loop keeps the roster and returns one mark per unit. With valid units, no unit already past is healed by later iterations, so every marked unit ends the loop at or below zero hp. Only experience and kills of the players change, and never downwards. Valid units stay valid. |
| Simulation.UnitLoopMarksExactly | server.js:406-409 | A unit is marked exactly when it is at or below zero hp at the end of its own iteration, in the match left by the iterations before it and its own; what later iterations do to it does not matter. |
| Simulation.PruneMarked | server.js:412 | The pruning as written keeps only units of the list, and never more of them. |
| Simulation.PruneDead | server.js:412 | The intended pruning keeps only units above zero hp. |
| Simulation.AgeProjectiles | server.js:415-418 | Each projectile loses `dt` of life and is kept exactly when life is left: every kept projectile is an input projectile `dt` older with life above zero, so none is invented, and no more are kept than were given. |
| Simulation.UpdateGameAsWritten | server.js:313-426 | The step as written: a finished or paused match is unchanged. Otherwise the clock advances by `dt`, the id counter is kept, no unit is added and no expired projectile remains. Every survivor is a unit of the loop, and every unit the loop did not mark survives; units may remain at or below zero hp (see Findings). |
| Simulation.UpdateGame | server.js:313-426 | A finished or paused match is unchanged. Otherwise the clock advances by `dt` and no expired projectile remains. The survivors are exactly the units of the loop above zero hp: each survivor is one of them and is alive, and every living unit of the loop survives. |
| SimulationProperties.PruneMarkedKeepsIds | server.js:412 | Pruning by marks keeps unit ids increasing and below the counter. |
| SimulationProperties.PruneDeadKeepsIds | server.js:412 | Pruning dead units keeps unit ids increasing and below the counter. |
| Simulation.PruneDeadKeepsLiving | server.js:412 | No living unit is lost by the intended pruning. |
| Simulation.PruneMarkedKeepsUnmarked | server.js:412 | No unmarked unit is lost by the pruning as written. |
| SimulationProperties.PruneMarkedDropsMarked | server.js:412 | With distinct ids, every marked unit is removed by the pruning as written. |
| SimulationProperties.StepDropsMarked | server.js:406-412 | In a valid running match, no unit with the id of a marked unit is left after the step as written. |
| SimulationProperties.DeadWithoutRegenIsMarked | server.js:366-409 | A unit with no regeneration that starts its own iteration at or below zero hp is marked. |
| SimulationProperties.DeadWithoutRegenIsPruned | server.js:336-412 | In a valid running match, a unit with no regeneration that starts its own iteration at or below zero hp (hit by the turret in this step or by a unit earlier in the list) is marked and gone after the step as written. |
| SimulationProperties.SpecialVictimIsPruned | server.js:366-412 | A unit with no regeneration that enters the step at or below zero hp, as the special leaves its victims, is gone after the step as written. |
| SimulationProperties.AgeProjectilesKeepsLive | server.js:415-418 | A projectile with life left after `dt` survives, `dt` older. |
| SimulationProperties.AgeProjectilesConcat | server.js:415-418 | Ageing filters projectile by projectile: ageing a list in two parts gives the aged first part followed by the aged second part, so the kept projectiles keep their order. |
| SimulationProperties.AdvanceFacts | server.js:317-410 | Before pruning, each player differs only in gold (exactly `income * dt / 1000` more), experience, kills and the two cooldowns. The roster is kept, and the clock advances by `dt`. |
| SimulationProperties.StepFrozenWhenOver | server.js:315 | Both versions of the step leave a finished or paused match untouched. |
| SimulationProperties.StepEconomy | server.js:320-363 | In both versions of the step, gold grows by exactly `income * dt / 1000`. Base hp and max hp are unchanged, so unit hits on a base are lost. The special cooldown stays non-negative. The turret cooldown is the decayed one or at least 800 ms. Levels, era and income are unchanged. |
| SimulationProperties.StepWinner | server.js:420-425 | `WinCheck`, run at the end of both steps: player 2 wins when player 1's base was at or below zero. Otherwise player 1 wins when player 2's base was. Both versions agree. |
| SimulationProperties.BothBasesDownPlayerTwoWins | server.js:420-425 | When both bases are down, player 2 is the winner. |
| SimulationProperties.StepPreservesValid | server.js:313-426 | With non-negative `dt`, both versions of the step keep a valid match valid, and no player's experience drops. |
| SimulationProperties.UnitMarchesWithoutTarget | server.js:401-404 | A unit with nothing in reach walks `speed * direction * dt / 16`, and the players are untouched. |
| SimulationProperties.BaseHitEarnsOnlyExperience | server.js:386-390 | A unit striking the base earns its owner a quarter of its damage in experience, and neither base loses hp. |
| SimulationProperties.RepeatKillCounts | server.js:391-397 | Hitting a unit already at or below zero hp counts another kill. |
| SimulationProperties.TurretShot | server.js:331-361 | In a player's phase, the turret fires exactly when the decayed cooldown is at or below zero and an enemy unit is strictly within 350. Then the nearest unit loses the turret damage, experience rises by 0.15 per point, the cooldown restarts and a 200 ms projectile is added. Otherwise units, experience and projectiles are unchanged, and the cooldown is the decayed one. |
| SimulationProperties.UnitStrikesItsTarget | server.js:383-399 | A ready unit whose target is an enemy unit takes its damage off that unit and restarts its own cooldown. Its owner gains 0.15 experience per point of damage, plus 5 experience and a kill when the target ends at or below zero hp. The opponent is untouched. |
| SimulationProperties.TurretEarnsNoKills | server.js:337-361 | A turret shot never counts a kill for either player. |
| SimulationProperties.CorpseScenarioLoop | server.js:366-410 | In the scenario, neither unit is marked, and the player 1 unit ends the loop at −5 hp. |
| SimulationProperties.CorpseKeptAsWritten | server.js:406-412 | In the scenario, the step as written keeps both units, the first at or below zero hp. |
| SimulationProperties.CorpseRemovedAsIntended | server.js:406-412 | In the scenario, the intended step keeps only the living player 2 unit, at 100 hp. |
| SimulationProperties.CorpseSurvivesPruneAsWritten | server.js:406-412 | In a valid match, the step as written leaves a unit with hp at or below zero on the lane, and the intended step removes it. |
| StatScaling.RoundedRate | server.js:174-175 | The double nearest 0.15 is `5404319552844595 / 2^55`, just below it. |
| StatScaling.LevelTwoMultiplier | server.js:174-175 | At level 2 the server's multiplier is `5179139571476070 / 2^52`, the double just below 1.15. |
| StatScaling.LevelTwoLosesAPoint | server.js:174-185 | As written, a level-2 health upgrade gives 114, 229 and 459 hp for the 100, 200 and 400 hp templates, where the exact rule gives 115, 230 and 460. |
| Catalog.TrimStart | script.js:175 | Trimming the start drops exactly the maximal leading run of whitespace. |
| Catalog.TrimEnd | script.js:175 | Trimming the end drops exactly the maximal trailing run of whitespace. |
| Catalog.Trim | script.js:175 | `trim` returns a contiguous slice that neither starts nor ends with whitespace, and everything cut away is whitespace. |
| Catalog.FirstSentence | script.js:173 | The first sentence is the longest prefix without a full stop, and it is followed by a full stop unless it is the whole text. |
| Catalog.TruncateDescription | script.js:170-176 | An empty or fitting text comes back unchanged. Otherwise the result is the first sentence when that fits. Failing that, it is the first `maxLength` characters, trimmed, plus `...`, and then at most 3 characters over the limit. |
| Catalog.TruncateCardDescription | script.js:170-176 | With the default limit of 60, a description of up to 60 characters is shown whole and none comes back longer than 63. |
| Catalog.TruncateDescriptionBound | script.js:170-176 | The result is never more than 3 characters over the limit, and a text longer than that is always shortened. |
| Catalog.TruncateDescriptionStable | script.js:170-176 | A first sentence returned for fitting is returned unchanged when shortened again. |
| Catalog.ToUpperAscii | script.js:240 | Upper-casing turns `a`-`z` into the capital at the same place in the alphabet, leaves every other character alone, and keeps word characters word characters. |
| Catalog.Despace | script.js:238-239 | Every hyphen and underscore becomes a space, and every other character is kept. |
| Catalog.CapitalizeFromAt | script.js:240 | The left-to-right scan upper-cases exactly the word characters not preceded by a word character. |
| Catalog.CapitalizeWords | script.js:240 | Every character at a word boundary is upper-cased, and every other character is kept. |
| Catalog.FormatGameName | script.js:236-241 | Same length. No hyphen or underscore remains; each becomes a space. Every word start is upper-cased, and every other character is kept. |
| Catalog.FormatGameNameIdempotent | script.js:236-241 | Formatting a formatted name changes nothing. |
| Catalog.FormatGameNameExample | script.js:236-241 | `age_of_wars` becomes `Age Of Wars`. |
| Likes.CountOf | script.js:62 | A missing count reads as 0. |
| Likes.Without | script.js:74 | Filtering removes every copy of the id and keeps every other id's count. A list without the id comes back unchanged. |
| Likes.WithoutConcat | script.js:74 | Filtering distributes over concatenation, so the ids kept stay in their original order. |
| Likes.Get | script.js:61-65 | The count is the cached one, or 0 while nothing is cached; `liked` says whether this browser liked the game. |
| Likes.Toggle | script.js:67-96 | The like flips, and the delta is −1 exactly when the game was liked. Unliking stores `Without(myLikes, gameId)`, which removes all copies of the id and keeps the other ids in order; liking appends it. A reply replaces the cache. Without one, only this game's count moves, by the delta, never below 0. The reported count is the cached one. |
| Likes.WithoutAppended | script.js:73-78 | Removing an id just appended to a list without it gives the list back. |
| Likes.ToggleTwiceRestoresList | script.js:67-95 | Liking then unliking a game restores the stored list exactly. |
| Likes.ToggleTwiceKeepsMultiset | script.js:67-95 | Toggling twice a game stored at most once restores the stored list up to order. |
| Likes.OfflineToggleTwiceRestoresCount | script.js:67-95 | With the server unreachable, like then unlike restores a non-negative cached count and every other game's count. |

## Left out

- Transport: socket.io connections, rooms, matchmaking, the 30 frames per second timer and disconnects (server.js:111-122, 463-552). The step takes `dt` as a parameter, and the action dispatch is modelled on its own. The `paused` flag is kept as the step reads it; nothing in the server sets it.
- The process-wide `nextUnitId` counter is a field of the match. Sharing it across rooms is not modelled.
- Cosmetics: unit names, colours (`shiftColor`), sizes, the y coordinate and projectile coordinates. Projectiles keep only owner and remaining life, since nothing else affects the game.
- Numbers are exact reals. IEEE 754 doubles appear only in `StatScaling`, for the finding below. Upgrade costs computed with doubles agree with the exact ones at every reachable level.
- Commands.SpawnUnit: the index is modelled as an integer, and a missing template is the failure case. The source never checks the index: `era.units[unitIndex]` (server.js:167) is a property lookup on an array. A string that spells 0, 1 or 2 in plain decimal (`"1"`) selects that template just as the number does. Other integers and non-integer numbers find no template, and the spawn fails at server.js:169. A name the array inherits (`"length"`, `"map"`, `"push"`, `"constructor"`) finds a truthy value, so the guard at server.js:169 passes. Then `unitDef.cost` is undefined, `player.gold < undefined` is false, and server.js:171 leaves the gold NaN. For player 1 a unit with NaN stats is pushed. For player 2 `shiftColor` (server.js:201-209) throws after the gold is already NaN. From then on every `gold < cost` guard is false, so spawns and specials cost nothing, and every upgrade guard fails. The model has no NaN and takes no strings as indices, so none of this is modelled.
- Balance.ScaledStat: computes in exact arithmetic, while the server computes in doubles. The two differ only at health level 2 for the 100 hp templates (114 instead of 115), the 200 hp template (229 instead of 230) and the 400 hp template (459 instead of 460); `StatScaling.LevelTwoLosesAPoint` states these (see Findings).
- Commands.SpawnUnit: the hp and damage follow `Balance.ScaledStat`, the exact rule, not the double computation (see Findings).
- Simulation.UpdateGame: the model's step is the intended one. `Simulation.UpdateGameAsWritten` keeps the code's pruning (see Findings).
- SimulationProperties.StepPreservesValid: holds only for `dt >= 0`. The server takes `dt` from two readings of `Date.now()` (server.js:498-503), and a wall clock can step backwards. With a negative `dt` the income lowers gold, possibly below zero, so the invariant is not promised then. `Simulation.UpdateGame` itself accepts every `dt`.
- Catalog: the DOM, `fetch` of the repository list, `formatDate`, card creation and the `CONFIG` tables are not modelled. A `null` description is not modelled (only strings). Lengths count Unicode scalar values, not UTF-16 code units.
- Likes: `localStorage` and `fetch` are replaced by explicit inputs and outputs. `fetchAll` is not modelled. Counts are integers; other JSON values in the reply are not modelled.
- Binary64: overflow, subnormals and NaN are not modelled. The values involved are far from all three.

## Findings

| source | as written | input that shows it | evidently intended | confidence | as-written member | corrected member |
|---|---|---|---|---|---|---|
| server.js:406-412 | Units are marked for removal at the end of their own iteration. A unit killed by a later unit of the same loop is never marked and stays on the lane with hp ≤ 0. It still attacks, walks and draws fire in the next step. | Player 1 unit at x 500 with 5 hp and range 5, listed before a player 2 unit at x 510 with damage 10 and range 30, both out of turret range, `dt` = 16 ms. | Every unit at or below zero hp after the loop is removed. | not executed | SimulationProperties.CorpseSurvivesPruneAsWritten | Simulation.UpdateGame |
| server.js:174-185 | The multiplier `1 + (level - 1) * 0.15` is computed in doubles, where the double stored for 0.15 is slightly below it. At level 2 the product of a round stat and the multiplier falls just under the integer, and the floor loses one point. | Unit health level 2, template hp 100: `Math.floor(100 * 1.15)` is 114. Hp 200 gives 229, and hp 400 gives 459. | The floor of the exact product: 115, 230, 460. | not executed | StatScaling.LevelTwoLosesAPoint | Balance.ScaledStat |

=== FILE: balance.dfy ===
/** The static balance and content tables of the match server
    (`BALANCE` and `ERAS` in server.js) and the closed formulas built on
    them: upgrade costs, turret damage and cooldown, income and the
    per-level unit stat bonus. Nothing here has state. */
module Balance {
  import opened Common

  // ---------------------------------------------------------------------
  // Economy and base
  // ---------------------------------------------------------------------

  const StartGold: real := 50.0
  const BaseIncome: real := 8.0
  const IncomePerLevel: real := 4.0
  const BaseHp: real := 1500.0
  const BaseHpPerUpgrade: real := 300.0

  /** Lane positions of the two bases and of freshly spawned units. */
  const Player1BaseX: real := 50.0
  const Player2BaseX: real := 950.0
  const Player1SpawnX: real := 80.0
  const Player2SpawnX: real := 920.0

  // ---------------------------------------------------------------------
  // Turret
  // ---------------------------------------------------------------------

  const TurretBaseCooldown: real := 1800.0
  const TurretCooldownReduction: real := 150.0
  const TurretMinCooldown: real := 800.0
  const TurretBaseDamage: int := 15
  const TurretDamagePerLevel: int := 10
  const TurretDamagePerEra: int := 6
  const TurretRange: real := 350.0

  /** Lifetime in milliseconds of the projectile a turret shot leaves behind. */
  const ProjectileLife: real := 200.0

  // ---------------------------------------------------------------------
  // Upgrades
  // ---------------------------------------------------------------------

  const MaxUpgradeLevel: nat := 5
  const MaxUnitUpgradeLevel: nat := 5
  /** Attack and health upgrades both add 15% of the template stat per level. */
  const UnitBonusPerLevel: real := 0.15
  const RegenPerLevel: real := 2.0

  // ---------------------------------------------------------------------
  // Special ability and experience
  // ---------------------------------------------------------------------

  const SpecialCost: real := 250.0
  const SpecialCooldown: real := 45000.0
  const SpecialUnitDamage: real := 100.0
  const SpecialBaseDamage: real := 50.0

  const XpPerDamageToUnit: real := 0.15
  const XpPerDamageToBase: real := 0.25
  const XpPerKill: real := 5.0

  // ---------------------------------------------------------------------
  // Eras and unit templates
  // ---------------------------------------------------------------------

  /** A unit template; display name, colour and sprite size are left out. */
  datatype UnitTemplate = UnitTemplate(
    cost: int,
    hp: int,
    damage: int,
    speed: real,
    range: real,
    attackSpeed: real)

  /** An era: the templates it unlocks and the experience needed to enter it. */
  datatype Era = Era(units: seq<UnitTemplate>, xpRequired: real)

  const EraCount: nat := 5

  /** An index into `Eras`; a player's era is always one of these. */
  type EraIndex = e: nat | e < EraCount

  const Eras: seq<Era> := [
    // Stone age
    Era([UnitTemplate(20, 60, 10, 1.8, 30.0, 800.0),
         UnitTemplate(40, 90, 15, 1.3, 45.0, 1000.0),
         UnitTemplate(55, 45, 22, 1.0, 120.0, 1400.0)], 0.0),
    // Middle ages
    Era([UnitTemplate(30, 100, 18, 1.6, 35.0, 850.0),
         UnitTemplate(75, 200, 28, 1.1, 40.0, 1200.0),
         UnitTemplate(50, 55, 24, 1.3, 160.0, 1300.0)], 120.0),
    // Gunpowder age
    Era([UnitTemplate(45, 80, 32, 1.4, 180.0, 1500.0),
         UnitTemplate(90, 160, 38, 2.0, 40.0, 1000.0),
         UnitTemplate(120, 100, 55, 0.7, 200.0, 2200.0)], 350.0),
    // Modern age
    Era([UnitTemplate(55, 100, 42, 1.7, 200.0, 1100.0),
         UnitTemplate(180, 400, 65, 0.8, 150.0, 1800.0),
         UnitTemplate(100, 60, 90, 1.0, 280.0, 2000.0)], 700.0),
    // Future
    Era([UnitTemplate(80, 150, 55, 1.9, 200.0, 900.0),
         UnitTemplate(250, 550, 85, 0.9, 180.0, 1600.0),
         UnitTemplate(130, 75, 110, 2.2, 250.0, 1700.0)], 1200.0)
  ]

  /** `ERAS[era].units[index]`: the template, or None when the index names
      no template of that era (JavaScript's `undefined`). */
  function Template(era: EraIndex, index: int): (r: Option<UnitTemplate>)
    ensures r.Some? <==> 0 <= index < 3
    ensures r.Some? ==> r.value.cost > 0 && r.value.hp > 0 && r.value.damage > 0
    ensures r.Some? ==> r.value.attackSpeed > 0.0 && r.value.range > 0.0
  {
    if 0 <= index < |Eras[era].units| then Some(Eras[era].units[index]) else None
  }

  // ---------------------------------------------------------------------
  // Upgrade kinds and their cost curves
  // ---------------------------------------------------------------------

  /** The six upgrades a player can buy. The first three are base upgrades
      (`BALANCE.upgrades`), the last three unit upgrades
      (`BALANCE.unitUpgrades`). */
  datatype UpgradeKind = Turret | Income | BaseHpUpgrade | Attack | Health | Regen

  /** The wire name of an upgrade kind, as sent in an `upgrade` action. */
  function KindName(k: UpgradeKind): string
  {
    match k
    case Turret => "turret"
    case Income => "income"
    case BaseHpUpgrade => "baseHp"
    case Attack => "attack"
    case Health => "health"
    case Regen => "regen"
  }

  /** Recognise an upgrade type string; anything else names no upgrade. */
  function ParseUpgradeKind(s: string): (r: Option<UpgradeKind>)
    ensures r.Some? ==> KindName(r.value) == s
    ensures r.None? ==> forall k: UpgradeKind :: KindName(k) != s
  {
    if s == "turret" then Some(Turret)
    else if s == "income" then Some(Income)
    else if s == "baseHp" then Some(BaseHpUpgrade)
    else if s == "attack" then Some(Attack)
    else if s == "health" then Some(Health)
    else if s == "regen" then Some(Regen)
    else None
  }

  /** Every upgrade kind is recognised from its own wire name, and
      different kinds have different names. */
  lemma UpgradeKindRoundTrip(k: UpgradeKind, k': UpgradeKind)
    ensures ParseUpgradeKind(KindName(k)) == Some(k)
    ensures k != k' ==> KindName(k) != KindName(k')
  {
  }

  /** The highest level an upgrade kind can reach. */
  function MaxLevel(k: UpgradeKind): nat
  {
    if k.Turret? || k.Income? || k.BaseHpUpgrade? then MaxUpgradeLevel else MaxUnitUpgradeLevel
  }

  function BaseCost(k: UpgradeKind): real
  {
    match k
    case Turret => 100.0
    case Income => 120.0
    case BaseHpUpgrade => 150.0
    case Attack => 80.0
    case Health => 80.0
    case Regen => 100.0
  }

  function CostMultiplier(k: UpgradeKind): real
  {
    match k
    case Turret => 2.2
    case Income => 2.5
    case BaseHpUpgrade => 2.3
    case Attack => 2.0
    case Health => 2.0
    case Regen => 2.2
  }

  /** `Math.pow(b, e)` for a positive base and an integer exponent. */
  function Pow(b: real, e: int): (r: real)
    requires b > 0.0
    ensures r > 0.0
    decreases if e < 0 then 1 - 2 * e else 2 * e
  {
    if e == 0 then 1.0
    else if e > 0 then b * Pow(b, e - 1)
    else 1.0 / Pow(b, -e)
  }

  /** `getUpgradeCost` / `getUnitUpgradeCost`: the price of raising an
      upgrade from `level`, `floor(baseCost * multiplier^(level - 1))`. */
  function UpgradeCost(k: UpgradeKind, level: int): int
  {
    (BaseCost(k) * Pow(CostMultiplier(k), level - 1)).Floor
  }

  // ---------------------------------------------------------------------
  // Derived per-level quantities
  // ---------------------------------------------------------------------

  /** Damage of one turret shot. */
  function TurretDamage(turretLevel: int, era: int): int
  {
    TurretBaseDamage + (turretLevel - 1) * TurretDamagePerLevel + era * TurretDamagePerEra
  }

  /** Cooldown a turret is reset to after firing. */
  function TurretCooldownAfterShot(turretLevel: int): (r: real)
    ensures r >= TurretMinCooldown
    ensures turretLevel >= 1 ==> r <= TurretBaseCooldown
  {
    Max(TurretMinCooldown, TurretBaseCooldown - (turretLevel - 1) as real * TurretCooldownReduction)
  }

  /** Gold per second at an income level. */
  function IncomeFor(incomeLevel: int): real
  {
    BaseIncome + (incomeLevel - 1) as real * IncomePerLevel
  }

  /** The stat multiplier `1 + (level - 1) * 0.15` of the attack and health
      upgrades. */
  function BonusMultiplier(level: int): real
  {
    1.0 + (level - 1) as real * UnitBonusPerLevel
  }

  /** A template stat (hp or damage) scaled by an upgrade level and floored,
      taking the multiplication in exact arithmetic. The integer form of
      the contract says the result is the floor of `v * (17 + 3 * level) / 20`,
      i.e. of `v * (1 + 0.15 * (level - 1))`. */
  function ScaledStat(v: int, level: int): (r: int)
    ensures 20 * r <= v * (17 + 3 * level) < 20 * (r + 1)
  {
    ((v as real) * BonusMultiplier(level)).Floor
  }

  // ---------------------------------------------------------------------
  // Properties of the cost curve
  // ---------------------------------------------------------------------

  /** Raising the exponent by one multiplies the power by the base, also
      across the step from a negative exponent to zero. */
  lemma PowSucc(b: real, e: int)
    requires b > 0.0
    requires e >= -1
    ensures Pow(b, e + 1) == Pow(b, e) * b
  {
    if e == -1 {
      assert Pow(b, 1) == b;
      assert Pow(b, -1) == 1.0 / b;
    }
  }

  /** Powers with a non-negative exponent of a base of at least one are at
      least one. */
  lemma {:induction false} PowAtLeastOne(b: real, e: nat)
    requires b >= 1.0
    ensures Pow(b, e) >= 1.0
  {
    if e > 0 {
      PowAtLeastOne(b, e - 1);
      assert Pow(b, e) == b * Pow(b, e - 1);
    }
  }

  /** The unfloored price at a reachable level is at least one gold piece
      short of the next level's. */
  lemma RawCostGap(k: UpgradeKind, level: nat)
    ensures BaseCost(k) * Pow(CostMultiplier(k), level) >= BaseCost(k) * Pow(CostMultiplier(k), level - 1) + 1.0
  {
    var m := CostMultiplier(k);
    var b := BaseCost(k);
    var x := Pow(m, level - 1);
    PowSucc(m, level - 1);
    if level == 0 {
      assert x == 1.0 / m;
      assert b * x >= 1.0;
    } else {
      PowAtLeastOne(m, level - 1);
    }
    assert b * x >= 1.0;
    assert b * Pow(m, level) == b * x + b * x * (m - 1.0);
    assert b * x * (m - 1.0) >= b * x;
  }

  /** Cost monotonicity: from every reachable level (regen starts at 0, the
      others at 1) the next level is strictly dearer than the current one. */
  lemma UpgradeCostIncreasing(k: UpgradeKind, level: nat)
    ensures UpgradeCost(k, level) < UpgradeCost(k, level + 1)
  {
    RawCostGap(k, level);
  }

  /** Every reachable upgrade costs at least one gold piece, so buying one
      always lowers the buyer's gold. */
  lemma UpgradeCostPositive(k: UpgradeKind, level: nat)
    ensures UpgradeCost(k, level) >= 1
  {
    var m := CostMultiplier(k);
    if level == 0 {
      assert Pow(m, -1) == 1.0 / m by { assert Pow(m, 1) == m; }
    } else {
      PowAtLeastOne(m, level - 1);
    }
  }

  /** The prices of every upgrade a player can actually buy: levels 1 to 4
      (0 to 4 for regen), since level 5 is the ceiling. */
  lemma UpgradeCostTable()
    ensures UpgradeCost(Turret, 1) == 100 && UpgradeCost(Turret, 2) == 220
    ensures UpgradeCost(Turret, 3) == 484 && UpgradeCost(Turret, 4) == 1064
    ensures UpgradeCost(Income, 1) == 120 && UpgradeCost(Income, 2) == 300
    ensures UpgradeCost(Income, 3) == 750 && UpgradeCost(Income, 4) == 1875
    ensures UpgradeCost(BaseHpUpgrade, 1) == 150 && UpgradeCost(BaseHpUpgrade, 2) == 345
    ensures UpgradeCost(BaseHpUpgrade, 3) == 793 && UpgradeCost(BaseHpUpgrade, 4) == 1825
    ensures UpgradeCost(Attack, 1) == 80 && UpgradeCost(Attack, 2) == 160
    ensures UpgradeCost(Attack, 3) == 320 && UpgradeCost(Attack, 4) == 640
    ensures UpgradeCost(Health, 1) == 80 && UpgradeCost(Health, 2) == 160
    ensures UpgradeCost(Health, 3) == 320 && UpgradeCost(Health, 4) == 640
    ensures UpgradeCost(Regen, 0) == 45 && UpgradeCost(Regen, 1) == 100
    ensures UpgradeCost(Regen, 2) == 220 && UpgradeCost(Regen, 3) == 484
    ensures UpgradeCost(Regen, 4) == 1064
  {
    assert Pow(2.2, 3) == 2.2 * 2.2 * 2.2;
    assert Pow(2.5, 3) == 2.5 * 2.5 * 2.5;
    assert Pow(2.3, 3) == 2.3 * 2.3 * 2.3;
    assert Pow(2.0, 3) == 8.0;
    assert Pow(2.2, -1) == 1.0 / 2.2;
  }

  /** At level 1 a template stat is unchanged, and each further attack or
      health level never lowers it. */
  lemma ScaledStatMonotone(v: nat, level: int)
    ensures ScaledStat(v, 1) == v
    ensures ScaledStat(v, level) <= ScaledStat(v, level + 1)
  {
  }

  /** Across the reachable turret levels and eras, a shot deals 15 damage
      plus 10 per level above the first and 6 per era, between 15 and 79;
      and the cooldown after a shot is 1800 ms less 150 per level above the
      first, so the 800 ms floor is never reached below level 8. */
  lemma TurretProgression(turretLevel: int, era: EraIndex)
    requires 1 <= turretLevel <= MaxUpgradeLevel
    ensures TurretDamage(turretLevel + 1, era) == TurretDamage(turretLevel, era) + 10
    ensures era + 1 < EraCount ==> TurretDamage(turretLevel, era + 1) == TurretDamage(turretLevel, era) + 6
    ensures 15 <= TurretDamage(turretLevel, era) <= 79
    ensures TurretCooldownAfterShot(turretLevel) == 1950.0 - 150.0 * turretLevel as real
    ensures TurretCooldownAfterShot(turretLevel) > TurretMinCooldown
  {
  }
}

=== FILE: binary64.dfy ===
/** Just enough of IEEE 754 binary64 arithmetic to follow the server's
    floating-point stat multipliers: rounding a real to the nearest double
    (ties to even), and the rounded sum and product. Exponent range limits
    (overflow, subnormals) are not modelled; the values involved here are
    far from both. */
module Binary64 {

  /** 2 to the power `n`, for any integer `n`. */
  function Pow2(n: int): (r: real)
    ensures r > 0.0
    decreases if n < 0 then -n else n
  {
    if n == 0 then 1.0
    else if n > 0 then 2.0 * Pow2(n - 1)
    else Pow2(n + 1) / 2.0
  }

  lemma Pow2Succ(n: int)
    ensures Pow2(n + 1) == 2.0 * Pow2(n)
  {
    if n < 0 {
      assert Pow2(n) == Pow2(n + 1) / 2.0;
    }
  }

  /** The binade of a positive real: the `e` with `2^e <= x < 2^(e+1)`. */
  function Exponent(x: real): (e: int)
    requires x > 0.0
    ensures Pow2(e) <= x < Pow2(e + 1)
    decreases if x >= 1.0 then 0 else 1, if x >= 1.0 then x.Floor else (1.0 / x).Floor
  {
    if x >= 2.0 then
      assert (x / 2.0).Floor < x.Floor;
      var e := Exponent(x / 2.0) + 1;
      Pow2Succ(e - 1);
      Pow2Succ(e);
      e
    else if x >= 1.0 then
      assert Pow2(1) == 2.0;
      0
    else
      assert 2.0 * x < 1.0 ==> (1.0 / (2.0 * x)).Floor < (1.0 / x).Floor by {
        if 2.0 * x < 1.0 {
          assert 1.0 / (2.0 * x) == (1.0 / x) / 2.0;
          assert 1.0 / x > 2.0;
        }
      }
      var e := Exponent(2.0 * x) - 1;
      Pow2Succ(e);
      Pow2Succ(e + 1);
      e
  }

  /** The spacing of doubles in the binade of `x`: `2^(e-52)`. */
  function Ulp(x: real): (u: real)
    requires x > 0.0
    ensures u > 0.0
  {
    Pow2(Exponent(x) - 52)
  }

  /** The integer nearest to `q`, the even one on a tie. */
  function NearestEven(q: real): (m: int)
    ensures 2.0 * (m as real - q) <= 1.0 && 2.0 * (q - m as real) <= 1.0
    ensures 2.0 * (m as real - q) == 1.0 || 2.0 * (q - m as real) == 1.0 ==> m % 2 == 0
  {
    var n := q.Floor;
    var frac := q - n as real;
    if frac > 0.5 || (frac == 0.5 && n % 2 == 1) then n + 1 else n
  }

  /** The positive real `x` rounded to the nearest multiple of its ulp,
      ties to the even multiple. */
  function RoundPositive(x: real): real
    requires x > 0.0
  {
    NearestEven(x / Ulp(x)) as real * Ulp(x)
  }

  /** Round to the nearest double. Rounding to nearest is symmetric, so a
      negative real rounds as its opposite does. */
  function Round(x: real): real
  {
    if x == 0.0 then 0.0
    else if x > 0.0 then RoundPositive(x)
    else -RoundPositive(-x)
  }

  /** IEEE addition and multiplication: the exact result, rounded. */
  function Add(a: real, b: real): real
  {
    Round(a + b)
  }

  function Mul(a: real, b: real): real
  {
    Round(a * b)
  }
}

=== FILE: catalog.dfy ===
/** The text helpers of the game catalog page (script.js): shortening a
    repository description for a card, and turning a repository name into
    a display title. Strings are sequences of Unicode scalar values. */
module Catalog {
  import opened Common

  // -----------------------------------------------------------------------
  // Whitespace and trimming
  // -----------------------------------------------------------------------

  /** The characters `String.prototype.trim` removes: ECMAScript WhiteSpace
      (tab, vertical tab, form feed, space, no-break space, the byte order
      mark and the Unicode space separators) and LineTerminator (line feed,
      carriage return, line and paragraph separators). */
  predicate IsWhitespace(c: char)
  {
    var n := c as int;
    || (9 <= n <= 13) || n == 32 || n == 0xA0 || n == 0x1680
    || (0x2000 <= n <= 0x200A) || n == 0x2028 || n == 0x2029
    || n == 0x202F || n == 0x205F || n == 0x3000 || n == 0xFEFF
  }

  /** `s` without its leading whitespace. */
  function TrimStart(s: string): (r: string)
    ensures |r| <= |s| && r == s[|s| - |r|..]
    ensures forall i :: 0 <= i < |s| - |r| ==> IsWhitespace(s[i])
    ensures |r| > 0 ==> !IsWhitespace(r[0])
  {
    if |s| > 0 && IsWhitespace(s[0]) then TrimStart(s[1..]) else s
  }

  /** `s` without its trailing whitespace. */
  function TrimEnd(s: string): (r: string)
    ensures |r| <= |s| && r == s[..|r|]
    ensures forall i :: |r| <= i < |s| ==> IsWhitespace(s[i])
    ensures |r| > 0 ==> !IsWhitespace(r[|r| - 1])
  {
    if |s| > 0 && IsWhitespace(s[|s| - 1]) then TrimEnd(s[..|s| - 1]) else s
  }

  /** `String.prototype.trim`: a contiguous slice of `s` that neither starts
      nor ends with whitespace, everything cut away being whitespace. */
  function Trim(s: string): (r: string)
    ensures |r| <= |s|
    ensures exists a :: (
      && 0 <= a <= |s| - |r| && s[a..][..|r|] == r
      && (forall i :: 0 <= i < a ==> IsWhitespace(s[i]))
      && (forall i :: a + |r| <= i < |s| ==> IsWhitespace(s[i])))
    ensures |r| > 0 ==> !IsWhitespace(r[0]) && !IsWhitespace(r[|r| - 1])
  {
    var t := TrimStart(s);
    var r := TrimEnd(t);
    var a := |s| - |t|;
    assert s[a..][..|r|] == r;
    r
  }

  // -----------------------------------------------------------------------
  // truncateDescription
  // -----------------------------------------------------------------------

  /** The card length used when no limit is given. */
  const DefaultDescriptionLength := 60

  /** `text.split('.')[0]`: everything before the first full stop, or the
      whole text when there is none. */
  function FirstSentence(text: string): (r: string)
    ensures |r| <= |text| && r == text[..|r|]
    ensures '.' !in r
    ensures |r| < |text| ==> text[|r|] == '.'
  {
    if |text| == 0 || text[0] == '.' then []
    else [text[0]] + FirstSentence(text[1..])
  }

  /** `text.substring(0, maxLength)` for a text longer than `maxLength`: a
      negative end is clamped to 0. */
  function Prefix(text: string, maxLength: int): (r: string)
    requires maxLength < |text|
    ensures |r| == ClampToZero(maxLength) && r == text[..|r|]
  {
    if maxLength <= 0 then [] else text[..maxLength]
  }

  /** `truncateDescription(text, maxLength)`: a text that fits is returned
      as it is; otherwise its first sentence when that fits; otherwise the
      first `maxLength` characters, trimmed, followed by an ellipsis. */
  function TruncateDescription(text: string, maxLength: int): (r: string)
    ensures |text| == 0 || |text| <= maxLength ==> r == text
    ensures |text| > 0 && |text| > maxLength ==>
      if |FirstSentence(text)| <= maxLength then
        && |r| <= maxLength && |r| < |text| && r == text[..|r|] && '.' !in r
        && (|r| < |text| && text[|r|] == '.')
      else
        && |r| >= 3 && r[|r| - 3..] == "..."
        && |r| <= ClampToZero(maxLength) + 3
        && r[..|r| - 3] == Trim(Prefix(text, maxLength))
  {
    if |text| == 0 || |text| <= maxLength then text
    else
      var first := FirstSentence(text);
      if |first| <= maxLength then first
      else
        var cut := Trim(Prefix(text, maxLength));
        var r := cut + "...";
        assert |cut| <= ClampToZero(maxLength);
        assert r[..|r| - 3] == cut;
        assert r[|r| - 3..] == "...";
        r
  }

  /** `truncateDescription(text)` with the default limit of 60: a card
      description of up to 60 characters is shown whole, and none is shown
      longer than 63. */
  function TruncateCardDescription(text: string): (r: string)
    ensures |text| <= 60 ==> r == text
    ensures |r| <= 63
    ensures |text| > 63 ==> |r| < |text|
  {
    TruncateDescriptionBound(text, DefaultDescriptionLength);
    TruncateDescription(text, DefaultDescriptionLength)
  }

  /** Whatever the text, the shortened description is at most three
      characters (the ellipsis) longer than the limit, and a description
      that does not fit is always shortened. */
  lemma TruncateDescriptionBound(text: string, maxLength: int)
    ensures |TruncateDescription(text, maxLength)| <= ClampToZero(maxLength) + 3
    ensures |text| > ClampToZero(maxLength) + 3 ==> |TruncateDescription(text, maxLength)| < |text|
  {
  }

  /** A description that fits, and a first sentence that fits, come back
      unchanged when shortened again: the first two outcomes are fixed
      points. */
  lemma TruncateDescriptionStable(text: string, maxLength: int)
    requires |text| > 0 && |text| > maxLength
    requires |FirstSentence(text)| <= maxLength
    ensures TruncateDescription(TruncateDescription(text, maxLength), maxLength)
         == TruncateDescription(text, maxLength)
  {
  }

  // -----------------------------------------------------------------------
  // formatGameName
  // -----------------------------------------------------------------------

  /** `\w`: an ASCII letter, digit or underscore. */
  predicate IsWordChar(c: char)
  {
    ('a' <= c <= 'z') || ('A' <= c <= 'Z') || ('0' <= c <= '9') || c == '_'
  }

  /** `toUpperCase` on a character `\w` matched: only `a`-`z` change. */
  function ToUpperAscii(c: char): (r: char)
    ensures IsWordChar(r) <==> IsWordChar(c)
    ensures !('a' <= r <= 'z')  || r == c
    ensures IsWordChar(c) ==> !('a' <= r <= 'z')
    // A lowercase letter becomes the capital at the same place in the alphabet.
    ensures 'a' <= c <= 'z' ==> 'A' <= r <= 'Z' && r as int - 'A' as int == c as int - 'a' as int
    ensures ('A' <= c <= 'Z') || ('0' <= c <= '9') || c == '_' || !('a' <= c <= 'z') ==> r == c
  {
    if 'a' <= c <= 'z' then (c as int - 32) as char else c
  }

  /** `.replace(/-/g, ' ').replace(/_/g, ' ')`. */
  function Despace(name: string): (r: string)
    ensures |r| == |name|
    ensures forall i :: 0 <= i < |name| ==>
      r[i] == (if name[i] == '-' || name[i] == '_' then ' ' else name[i])
  {
    if |name| == 0 then []
    else [if name[0] == '-' || name[0] == '_' then ' ' else name[0]] + Despace(name[1..])
  }

  /** Position `i` of `s` is where `\b\w` matches: a word character not
      preceded by one. */
  ghost predicate WordStart(s: string, i: int)
    requires 0 <= i < |s|
  {
    IsWordChar(s[i]) && (i == 0 || !IsWordChar(s[i - 1]))
  }

  /** The left-to-right scan of `.replace(/\b\w/g, c => c.toUpperCase())`
      over `s`, where `afterWord` says whether the character before `s` was
      a word character. */
  function CapitalizeFrom(s: string, afterWord: bool): (r: string)
    ensures |r| == |s|
  {
    if |s| == 0 then []
    else
      var c := if IsWordChar(s[0]) && !afterWord then ToUpperAscii(s[0]) else s[0];
      [c] + CapitalizeFrom(s[1..], IsWordChar(s[0]))
  }

  /** The scan upper-cases exactly the word characters that follow a
      non-word character (or, at the start, follow what `afterWord` says). */
  lemma {:induction false} CapitalizeFromAt(s: string, afterWord: bool, i: nat)
    requires i < |s|
    ensures CapitalizeFrom(s, afterWord)[i] ==
      (if IsWordChar(s[i]) && (if i == 0 then !afterWord else !IsWordChar(s[i - 1]))
       then ToUpperAscii(s[i]) else s[i])
  {
    if i > 0 {
      CapitalizeFromAt(s[1..], IsWordChar(s[0]), i - 1);
      assert s[1..][i - 1] == s[i];
      if i > 1 {
        assert s[1..][i - 2] == s[i - 1];
      }
    }
  }

  /** `.replace(/\b\w/g, c => c.toUpperCase())`: the character at every
      word start is upper-cased, every other character is kept. */
  function CapitalizeWords(s: string): (r: string)
    ensures |r| == |s|
    ensures forall i :: 0 <= i < |s| ==>
      r[i] == (if WordStart(s, i) then ToUpperAscii(s[i]) else s[i])
  {
    var r := CapitalizeFrom(s, false);
    assert forall i :: 0 <= i < |s| ==>
      r[i] == (if WordStart(s, i) then ToUpperAscii(s[i]) else s[i]) by {
      forall i | 0 <= i < |s|
        ensures r[i] == (if WordStart(s, i) then ToUpperAscii(s[i]) else s[i])
      {
        CapitalizeFromAt(s, false, i);
      }
    }
    r
  }

  /** `formatGameName(name)`: hyphens and underscores become spaces, then
      each word starts with a capital. */
  function FormatGameName(name: string): (r: string)
    ensures |r| == |name|
    ensures '-' !in r && '_' !in r
    ensures forall i :: 0 <= i < |name| ==>
      if name[i] == '-' || name[i] == '_' then r[i] == ' '
      else if WordStart(Despace(name), i) then r[i] == ToUpperAscii(name[i])
      else r[i] == name[i]
    ensures forall i :: 0 <= i < |r| && WordStart(r, i) ==> !('a' <= r[i] <= 'z')
  {
    var d := Despace(name);
    var r := CapitalizeWords(d);
    assert forall i :: 0 <= i < |r| ==> (IsWordChar(r[i]) <==> IsWordChar(d[i]));
    r
  }

  /** Formatting a name twice gives the same title as formatting it once. */
  lemma FormatGameNameIdempotent(name: string)
    ensures FormatGameName(FormatGameName(name)) == FormatGameName(name)
  {
    var r := FormatGameName(name);
    var d := Despace(name);
    assert Despace(r) == r;
    assert forall i :: 0 <= i < |r| ==> (IsWordChar(r[i]) <==> IsWordChar(d[i]));
    assert forall i :: 0 <= i < |r| ==> (WordStart(r, i) <==> WordStart(d, i));
  }

  lemma DespaceExample(n: string)
    requires n == "age_of_wars"
    ensures Despace(n) == "age of wars"
  {
    var r := Despace(n);
    forall i | 0 <= i < 11 ensures r[i] == "age of wars"[i] {
      assert n[i] == '_' <==> i == 3 || i == 6;
    }
  }

  lemma CapitalizeExample()
    ensures CapitalizeWords("age of wars") == "Age Of Wars"
  {
    var r := CapitalizeWords("age of wars");
    assert r[0] == 'A';
    assert r[1] == 'g';
    assert r[2] == 'e';
    assert r[3] == ' ';
    assert r[4] == 'O';
    assert r[5] == 'f';
    assert r[6] == ' ';
    assert r[7] == 'W';
    assert r[8] == 'a';
    assert r[9] == 'r';
    assert r[10] == 's';
  }

  /** A repository name in snake case becomes its title: `age_of_wars`
      becomes `Age Of Wars`. */
  lemma FormatGameNameExample()
    ensures FormatGameName("age_of_wars") == "Age Of Wars"
  {
    DespaceExample("age_of_wars");
    CapitalizeExample();
  }
}

=== FILE: command_properties.dfy ===
/** Properties that relate the commands to each other and to the match
    invariant: every command keeps a valid match valid, never raises the
    acting player's gold, never lowers an era, and the special cannot be
    cast twice in a row. */
module CommandProperties {
  import opened Common
  import opened Balance
  import opened State
  import opened Commands

  lemma SpawnPreservesValid(g: Game, s: Slot, unitIndex: int)
    requires ValidGame(g)
    ensures ValidGame(SpawnUnit(g, s, unitIndex).game)
  {
    var r := SpawnUnit(g, s, unitIndex);
    if r.ok {
      var n := |g.units|;
      var units := r.game.units;
      assert forall i :: 0 <= i < n ==> units[i] == g.units[i] by {
        assert units[..n] == g.units;
      }
      var p := g.PlayerOf(s);
      var t := Template(p.era, unitIndex).value;
      assert units[n] == NewUnit(s, p, t, g.nextUnitId);
      assert ValidUnit(units[n]);
    }
  }

  lemma UpgradePreservesValid(g: Game, s: Slot, upgradeType: string)
    requires ValidGame(g)
    ensures ValidGame(DoUpgrade(g, s, upgradeType).game)
  {
    var r := DoUpgrade(g, s, upgradeType);
    if r.ok {
      var p := g.PlayerOf(s);
      var k := ParseUpgradeKind(upgradeType).value;
      UpgradeCostPositive(k, Level(p, k));
      assert r.game.PlayerOf(s) == Upgraded(p, k);
    }
  }

  lemma EvolvePreservesValid(g: Game, s: Slot)
    requires ValidGame(g)
    ensures ValidGame(DoEvolve(g, s).game)
  {
  }

  lemma SpecialPreservesValid(g: Game, s: Slot)
    requires ValidGame(g)
    ensures ValidGame(DoSpecial(g, s).game)
  {
    var r := DoSpecial(g, s);
    if r.ok {
      var units := r.game.units;
      assert forall i :: 0 <= i < |units| ==> units[i].id == g.units[i].id;
      assert forall i :: 0 <= i < |units| ==> ValidUnit(units[i]) by {
        forall i | 0 <= i < |units| ensures ValidUnit(units[i]) {
          assert ValidUnit(g.units[i]);
        }
      }
    }
  }

  /** Whatever a connected player sends, a valid match stays valid: gold
      never negative, levels within range, base hp within its maximum, unit
      ids unique. */
  lemma ActionPreservesValid(g: Game, s: Slot, a: Action)
    requires ValidGame(g)
    ensures ValidGame(ApplyAction(g, s, a).game)
  {
    match a
    case SpawnUnitAction(i) => SpawnPreservesValid(g, s, i);
    case UpgradeAction(t) => UpgradePreservesValid(g, s, t);
    case EvolveAction => EvolvePreservesValid(g, s);
    case SpecialAction => SpecialPreservesValid(g, s);
    case UnknownAction =>
  }

  /** A command never raises the acting player's gold, never touches the
      opponent's gold, experience or levels, and when it succeeds with
      anything but an evolve the player ends strictly poorer. */
  lemma ActionNeverMintsGold(g: Game, s: Slot, a: Action)
    requires ValidGame(g)
    ensures ApplyAction(g, s, a).game.PlayerOf(s).gold <= g.PlayerOf(s).gold
    ensures ApplyAction(g, s, a).ok && !a.EvolveAction? ==>
      ApplyAction(g, s, a).game.PlayerOf(s).gold < g.PlayerOf(s).gold
    ensures ApplyAction(g, s, a).game.PlayerOf(Enemy(s)).gold == g.PlayerOf(Enemy(s)).gold
    ensures ApplyAction(g, s, a).game.PlayerOf(Enemy(s)).xp == g.PlayerOf(Enemy(s)).xp
    ensures ApplyAction(g, s, a).game.PlayerOf(Enemy(s)).era == g.PlayerOf(Enemy(s)).era
  {
    if a.UpgradeAction? {
      var r := DoUpgrade(g, s, a.upgradeType);
      if r.ok {
        var k := ParseUpgradeKind(a.upgradeType).value;
        UpgradeCostPositive(k, Level(g.PlayerOf(s), k));
      }
    }
  }

  /** Eras only move forward, and by at most one step per command. */
  lemma ActionEraMonotone(g: Game, s: Slot, a: Action)
    ensures var e := ApplyAction(g, s, a).game.PlayerOf(s).era;
      g.PlayerOf(s).era <= e <= g.PlayerOf(s).era + 1
    ensures ApplyAction(g, s, a).game.PlayerOf(s).era == g.PlayerOf(s).era + 1 ==>
      a.EvolveAction? && g.PlayerOf(s).xp >= Eras[g.PlayerOf(s).era + 1].xpRequired
  {
  }

  /** Once cast, the special is locked out by its own cooldown: the same
      player cannot cast it again before time passes. */
  lemma SpecialNotRepeatable(g: Game, s: Slot)
    requires DoSpecial(g, s).ok
    ensures !DoSpecial(DoSpecial(g, s).game, s).ok
    ensures DoSpecial(g, s).game.PlayerOf(s).specialCooldown == 45000.0
  {
  }

  /** A player at the final era can never evolve again, however much
      experience they have. */
  lemma NoEvolveBeyondLastEra(g: Game, s: Slot)
    requires g.PlayerOf(s).era == EraCount - 1
    ensures !DoEvolve(g, s).ok
  {
  }
}

=== FILE: commands.dfy ===
/** The player commands of server.js: `spawnUnit`, `doUpgrade`, `doEvolve`
    and `doSpecial`. Each either applies a guarded change to the match and
    reports success, or reports failure and leaves the match as it was. */
module Commands {
  import opened Common
  import opened Balance
  import opened State

  /** What a command returns: whether it was applied, and the match after it. */
  datatype Outcome = Outcome(ok: bool, game: Game)

  // -----------------------------------------------------------------------
  // spawnUnit
  // -----------------------------------------------------------------------

  /** The unit `spawnUnit` creates for player `s` from template `t`. */
  function NewUnit(s: Slot, p: Player, t: UnitTemplate, id: nat): Unit
  {
    var hp := ScaledStat(t.hp, p.healthLevel) as real;
    Unit(
      id := id,
      owner := s,
      x := if s == 1 then Player1SpawnX else Player2SpawnX,
      hp := hp,
      maxHp := hp,
      damage := ScaledStat(t.damage, p.attackLevel),
      speed := t.speed,
      range := t.range,
      attackSpeed := t.attackSpeed,
      attackCooldown := 0.0,
      direction := DirectionOf(s),
      regen := p.regenLevel as real * RegenPerLevel)
  }

  /** `spawnUnit(game, s, unitIndex)`: buy template `unitIndex` of the
      player's current era and append the new unit to the lane. */
  function SpawnUnit(g: Game, s: Slot, unitIndex: int): (r: Outcome)
    ensures var p := g.PlayerOf(s); var t := Template(p.era, unitIndex);
      r.ok <==> t.Some? && p.gold >= t.value.cost as real
    ensures !r.ok ==> r.game == g
    ensures r.ok ==>
      var p := g.PlayerOf(s);
      var t := Template(p.era, unitIndex).value;
      var n := |g.units|;
      && r.game.PlayerOf(s) == p.(gold := p.gold - t.cost as real)
      && r.game.PlayerOf(Enemy(s)) == g.PlayerOf(Enemy(s))
      && |r.game.units| == n + 1
      && r.game.units[..n] == g.units
      && r.game.units[n].id == g.nextUnitId
      && r.game.units[n].owner == s
      && r.game.units[n].direction == (if s == 1 then 1 else -1)
      && r.game.units[n].x == (if s == 1 then 80.0 else 920.0)
      && r.game.units[n].speed == t.speed && r.game.units[n].range == t.range
      && r.game.units[n].attackSpeed == t.attackSpeed
      && r.game.units[n].attackCooldown == 0.0
      && r.game.units[n].hp == r.game.units[n].maxHp
      && 20 * r.game.units[n].hp.Floor <= t.hp * (17 + 3 * p.healthLevel) < 20 * (r.game.units[n].hp.Floor + 1)
      && r.game.units[n].hp == r.game.units[n].hp.Floor as real
      && 20 * r.game.units[n].damage <= t.damage * (17 + 3 * p.attackLevel) < 20 * (r.game.units[n].damage + 1)
      && r.game.units[n].regen == p.regenLevel as real * 2.0
      && r.game.nextUnitId == g.nextUnitId + 1
      && r.game.projectiles == g.projectiles
      && r.game.gameTime == g.gameTime && r.game.winner == g.winner && r.game.paused == g.paused
  {
    var p := g.PlayerOf(s);
    match Template(p.era, unitIndex)
    case None => Outcome(false, g)
    case Some(t) =>
      if p.gold < t.cost as real then Outcome(false, g)
      else
        var g' := g.WithPlayer(s, p.(gold := p.gold - t.cost as real));
        Outcome(true, g'.(units := g.units + [NewUnit(s, p, t, g.nextUnitId)],
                          nextUnitId := g.nextUnitId + 1))
  }

  // -----------------------------------------------------------------------
  // doUpgrade
  // -----------------------------------------------------------------------

  /** The player's current level of an upgrade kind. */
  function Level(p: Player, k: UpgradeKind): nat
  {
    match k
    case Turret => p.turretLevel
    case Income => p.incomeLevel
    case BaseHpUpgrade => p.baseHpLevel
    case Attack => p.attackLevel
    case Health => p.healthLevel
    case Regen => p.regenLevel
  }

  /** The player after buying one level of `k`: gold paid, level raised,
      income recomputed for an income upgrade, and both base hp and max hp
      raised for a base hp upgrade. */
  function Upgraded(p: Player, k: UpgradeKind): Player
  {
    var p' := p.(gold := p.gold - UpgradeCost(k, Level(p, k)) as real);
    match k
    case Turret => p'.(turretLevel := p.turretLevel + 1)
    case Income =>
      p'.(incomeLevel := p.incomeLevel + 1, income := IncomeFor(p.incomeLevel + 1))
    case BaseHpUpgrade =>
      p'.(baseHpLevel := p.baseHpLevel + 1,
          base := p.base.(maxHp := p.base.maxHp + BaseHpPerUpgrade,
                          hp := p.base.hp + BaseHpPerUpgrade))
    case Attack => p'.(attackLevel := p.attackLevel + 1)
    case Health => p'.(healthLevel := p.healthLevel + 1)
    case Regen => p'.(regenLevel := p.regenLevel + 1)
  }

  /** `doUpgrade(game, s, upgradeType)`. */
  function DoUpgrade(g: Game, s: Slot, upgradeType: string): (r: Outcome)
    ensures var p := g.PlayerOf(s); var k := ParseUpgradeKind(upgradeType);
      r.ok <==> && k.Some?
                && Level(p, k.value) < MaxLevel(k.value)
                && p.gold >= UpgradeCost(k.value, Level(p, k.value)) as real
    ensures !r.ok ==> r.game == g
    ensures r.ok ==>
      var p := g.PlayerOf(s);
      var k := ParseUpgradeKind(upgradeType).value;
      var p' := r.game.PlayerOf(s);
      && r.game == g.WithPlayer(s, p')
      && p'.gold == p.gold - UpgradeCost(k, Level(p, k)) as real
      && Level(p', k) == Level(p, k) + 1
      && (forall k' :: k' != k ==> Level(p', k') == Level(p, k'))
      && p'.income == (if k == Income then 8.0 + 4.0 * (p'.incomeLevel - 1) as real else p.income)
      && p'.base.hp == (if k == BaseHpUpgrade then p.base.hp + 300.0 else p.base.hp)
      && p'.base.maxHp == (if k == BaseHpUpgrade then p.base.maxHp + 300.0 else p.base.maxHp)
      && p'.base.x == p.base.x && p'.base.turretCooldown == p.base.turretCooldown
      && p'.xp == p.xp && p'.era == p.era && p'.kills == p.kills
      && p'.specialCooldown == p.specialCooldown && p'.num == p.num
  {
    var p := g.PlayerOf(s);
    match ParseUpgradeKind(upgradeType)
    case None => Outcome(false, g)
    case Some(k) =>
      if Level(p, k) < MaxLevel(k) && p.gold >= UpgradeCost(k, Level(p, k)) as real
      then Outcome(true, g.WithPlayer(s, Upgraded(p, k)))
      else Outcome(false, g)
  }

  // -----------------------------------------------------------------------
  // doEvolve
  // -----------------------------------------------------------------------

  /** `doEvolve(game, s)`: enter the next era once enough experience has
      been gathered. Experience is a threshold, not a price. */
  function DoEvolve(g: Game, s: Slot): (r: Outcome)
    ensures var p := g.PlayerOf(s);
      r.ok <==> p.era < EraCount - 1 && p.xp >= Eras[p.era + 1].xpRequired
    ensures !r.ok ==> r.game == g
    ensures r.ok ==>
      var p := g.PlayerOf(s);
      && r.game.PlayerOf(s).era == p.era + 1
      && r.game == g.WithPlayer(s, r.game.PlayerOf(s))
      && r.game.PlayerOf(s) == p.(era := r.game.PlayerOf(s).era)
  {
    var p := g.PlayerOf(s);
    if p.era >= EraCount - 1 then Outcome(false, g)
    else if p.xp >= Eras[p.era + 1].xpRequired then Outcome(true, g.WithPlayer(s, p.(era := p.era + 1)))
    else Outcome(false, g)
  }

  // -----------------------------------------------------------------------
  // doSpecial
  // -----------------------------------------------------------------------

  /** Every unit of `enemy` loses the special's unit damage; others are untouched. */
  function SpecialHit(units: seq<Unit>, enemy: Slot): (r: seq<Unit>)
    ensures |r| == |units|
    ensures forall i :: 0 <= i < |units| && units[i].owner != enemy ==> r[i] == units[i]
    ensures forall i :: 0 <= i < |units| && units[i].owner == enemy ==>
      r[i] == units[i].(hp := units[i].hp - 100.0)
  {
    seq(|units|, i requires 0 <= i < |units| =>
      if units[i].owner == enemy then units[i].(hp := units[i].hp - SpecialUnitDamage) else units[i])
  }

  /** `doSpecial(game, s)`: pay for the special, start its cooldown, and
      damage every enemy unit and the enemy base at once. */
  function DoSpecial(g: Game, s: Slot): (r: Outcome)
    ensures var p := g.PlayerOf(s);
      r.ok <==> p.gold >= 250.0 && p.specialCooldown <= 0.0
    ensures !r.ok ==> r.game == g
    ensures r.ok ==>
      var p := g.PlayerOf(s);
      var e := g.PlayerOf(Enemy(s));
      && r.game.PlayerOf(s) == p.(gold := p.gold - 250.0, specialCooldown := 45000.0)
      && r.game.PlayerOf(Enemy(s)) == e.(base := e.base.(hp := e.base.hp - 50.0))
      && r.game.units == SpecialHit(g.units, Enemy(s))
      && r.game.projectiles == g.projectiles && r.game.nextUnitId == g.nextUnitId
      && r.game.gameTime == g.gameTime && r.game.winner == g.winner && r.game.paused == g.paused
  {
    var p := g.PlayerOf(s);
    if p.gold < SpecialCost || p.specialCooldown > 0.0 then Outcome(false, g)
    else
      var e := g.PlayerOf(Enemy(s));
      var g1 := g.WithPlayer(s, p.(gold := p.gold - SpecialCost, specialCooldown := SpecialCooldown));
      var g2 := g1.WithPlayer(Enemy(s), e.(base := e.base.(hp := e.base.hp - SpecialBaseDamage)));
      Outcome(true, g2.(units := SpecialHit(g.units, Enemy(s))))
  }

  // -----------------------------------------------------------------------
  // Action dispatch
  // -----------------------------------------------------------------------

  /** The `action` messages a connection may send. */
  datatype Action =
    | SpawnUnitAction(unitIndex: int)
    | UpgradeAction(upgradeType: string)
    | EvolveAction
    | SpecialAction
    | UnknownAction

  /** The `action` handler's dispatch on the message type; an unknown type
      does nothing. */
  function ApplyAction(g: Game, s: Slot, a: Action): Outcome
  {
    match a
    case SpawnUnitAction(i) => SpawnUnit(g, s, i)
    case UpgradeAction(t) => DoUpgrade(g, s, t)
    case EvolveAction => DoEvolve(g, s)
    case SpecialAction => DoSpecial(g, s)
    case UnknownAction => Outcome(false, g)
  }
}

=== FILE: common.dfy ===
/** Small shared vocabulary: an optional value and the `Math` helpers the
    game rules call on numbers. */
module Common {

  /** A value that may be absent (JavaScript's `null`). */
  datatype Option<T> = None | Some(value: T)

  /** `Math.min` on two reals: the first argument when they are equal. */
  function Min(a: real, b: real): (r: real)
    ensures r <= a && r <= b
    ensures r == a || r == b
  {
    if a <= b then a else b
  }

  /** `Math.max` on two reals. */
  function Max(a: real, b: real): (r: real)
    ensures r >= a && r >= b
    ensures r == a || r == b
  {
    if a >= b then a else b
  }

  /** `Math.max(0, x)` on an integer; `substring` clamps a negative end
      the same way. */
  function ClampToZero(x: int): (r: nat)
    ensures r >= x
    ensures x >= 0 ==> r == x
    ensures x < 0 ==> r == 0
  {
    if x >= 0 then x else 0
  }

  /** `Math.abs` on a real. */
  function Abs(x: real): (r: real)
    ensures r >= 0.0
    ensures r == x || r == -x
  {
    if x < 0.0 then -x else x
  }
}

=== FILE: likes.dfy ===
/** The like button of the game catalog (`Likes` in script.js). The list of
    games this browser liked lives in local storage; the global counts live
    on the likes server and are cached in memory. Toggling flips this
    browser's like, tells the server, and falls back to adjusting the cached
    count locally when the server cannot be reached. */
module Likes {
  import opened Common

  /** The cached global counts, by game id. */
  type Counts = map<string, int>

  /** `counts[gameId] || 0`: a missing entry reads as no likes. */
  function CountOf(counts: Counts, gameId: string): (n: int)
    ensures gameId !in counts ==> n == 0
    ensures gameId in counts ==> n == counts[gameId]
  {
    if gameId in counts then counts[gameId] else 0
  }

  /** `myLikes.filter(id => id !== gameId)`: every copy of `gameId`
      removed, the rest kept in order. */
  function Without(likes: seq<string>, gameId: string): (r: seq<string>)
    ensures gameId !in r
    ensures forall id :: id != gameId ==> multiset(r)[id] == multiset(likes)[id]
    ensures |r| <= |likes|
    ensures gameId !in likes ==> r == likes
  {
    if |likes| == 0 then []
    else
      assert likes == [likes[0]] + likes[1..];
      (if likes[0] == gameId then [] else [likes[0]]) + Without(likes[1..], gameId)
  }

  /** Filtering distributes over concatenation, so the kept ids stay in
      their original order. */
  lemma {:induction false} WithoutConcat(a: seq<string>, b: seq<string>, gameId: string)
    ensures Without(a + b, gameId) == Without(a, gameId) + Without(b, gameId)
  {
    if |a| > 0 {
      assert (a + b)[1..] == a[1..] + b;
      WithoutConcat(a[1..], b, gameId);
    } else {
      assert a + b == b;
    }
  }

  /** What `Likes.get` reports for a game: the cached count (no likes while
      nothing is cached) and whether this browser liked it. */
  datatype LikeView = LikeView(count: int, liked: bool)

  function Get(myLikes: seq<string>, cache: Option<Counts>, gameId: string): (v: LikeView)
    ensures v.liked <==> gameId in myLikes
    ensures cache.None? ==> v.count == 0
    ensures cache.Some? ==> v.count == CountOf(cache.value, gameId)
  {
    LikeView(if cache.Some? then CountOf(cache.value, gameId) else 0, gameId in myLikes)
  }

  /** Everything `Likes.toggle` changes and returns: the stored list, the
      cache, the change sent to the server, and the reported view. */
  datatype Toggled = Toggled(myLikes: seq<string>, cache: Counts, delta: int, view: LikeView)

  /** `Likes.toggle(gameId)`. The server's reply is a parameter: the counts
      it returns, or `None` when the request or its decoding failed. */
  function Toggle(myLikes: seq<string>, cache: Option<Counts>, gameId: string,
                  reply: Option<Counts>): (r: Toggled)
    // The like flips, and the change sent is -1 exactly when it was liked.
    ensures r.view.liked <==> gameId !in myLikes
    ensures r.delta == (if gameId in myLikes then -1 else 1)
    ensures gameId in r.myLikes <==> gameId !in myLikes
    // Only this game's entries in the stored list change.
    ensures forall id :: id != gameId ==> multiset(r.myLikes)[id] == multiset(myLikes)[id]
    ensures gameId !in myLikes ==> r.myLikes == myLikes + [gameId]
    ensures gameId in myLikes ==> r.myLikes == Without(myLikes, gameId)
    // With a reply the cache is replaced by it; without one only this
    // game's count moves, by the change but never below zero.
    ensures reply.Some? ==> r.cache == reply.value
    ensures reply.None? ==>
      var prior := if cache.Some? then cache.value else map[];
      && gameId in r.cache
      && r.cache[gameId] == ClampToZero(CountOf(prior, gameId) + r.delta)
      && (forall id :: id != gameId ==> (id in r.cache <==> id in prior))
      && (forall id :: id != gameId && id in prior ==> id in r.cache && r.cache[id] == prior[id])
    ensures r.view.count == CountOf(r.cache, gameId)
    ensures reply.None? ==> r.view.count >= 0
  {
    var isLiked := gameId in myLikes;
    var delta := if isLiked then -1 else 1;
    var stored := if isLiked then Without(myLikes, gameId) else myLikes + [gameId];
    var counts := match reply
      case Some(served) => served
      case None =>
        var prior := if cache.Some? then cache.value else map[];
        prior[gameId := ClampToZero(CountOf(prior, gameId) + delta)];
    Toggled(stored, counts, delta, LikeView(CountOf(counts, gameId), !isLiked))
  }

  /** Removing an id that was just appended to a list without it gives the
      list back. */
  lemma {:induction false} WithoutAppended(likes: seq<string>, gameId: string)
    requires gameId !in likes
    ensures Without(likes + [gameId], gameId) == likes
  {
    if |likes| == 0 {
      assert likes + [gameId] == [gameId];
    } else {
      assert (likes + [gameId])[1..] == likes[1..] + [gameId];
      WithoutAppended(likes[1..], gameId);
    }
  }

  /** Liking then unliking a game this browser had not liked restores the
      stored list exactly. */
  lemma ToggleTwiceRestoresList(myLikes: seq<string>, cache: Option<Counts>, gameId: string,
                                reply1: Option<Counts>, reply2: Option<Counts>)
    requires gameId !in myLikes
    ensures var once := Toggle(myLikes, cache, gameId, reply1);
      Toggle(once.myLikes, Some(once.cache), gameId, reply2).myLikes == myLikes
  {
    WithoutAppended(myLikes, gameId);
  }

  /** Unliking then liking again a game liked once restores the stored list
      up to order: the id moves to the end. */
  lemma ToggleTwiceKeepsMultiset(myLikes: seq<string>, cache: Option<Counts>, gameId: string,
                                 reply1: Option<Counts>, reply2: Option<Counts>)
    requires multiset(myLikes)[gameId] <= 1
    ensures var once := Toggle(myLikes, cache, gameId, reply1);
      multiset(Toggle(once.myLikes, Some(once.cache), gameId, reply2).myLikes) == multiset(myLikes)
  {
    var once := Toggle(myLikes, cache, gameId, reply1);
    var twice := Toggle(once.myLikes, Some(once.cache), gameId, reply2);
    if gameId !in myLikes {
      WithoutAppended(myLikes, gameId);
    } else {
      assert multiset(myLikes)[gameId] == 1;
      assert multiset(twice.myLikes)[gameId] == 1;
    }
  }

  /** While the server is unreachable, liking then unliking a game puts its
      cached count back where it was (when it was not negative), and leaves
      every other game's count alone. */
  lemma OfflineToggleTwiceRestoresCount(myLikes: seq<string>, cache: Counts, gameId: string)
    requires gameId !in myLikes
    requires CountOf(cache, gameId) >= 0
    ensures var once := Toggle(myLikes, Some(cache), gameId, None);
      var twice := Toggle(once.myLikes, Some(once.cache), gameId, None);
      && twice.view.count == CountOf(cache, gameId)
      && once.view.count == CountOf(cache, gameId) + 1
      && forall id :: id != gameId && id in cache ==> id in twice.cache && twice.cache[id] == cache[id]
  {
    WithoutAppended(myLikes, gameId);
  }
}

=== FILE: simulation.dfy ===
/** One simulation step of a match, `updateGame(room, deltaTime)` in
    server.js. In order: clock, then for player 1 and then player 2 the
    economy, the two cooldowns and turret fire; then the unit loop
    (regeneration, attack cooldown, targeting, attack or movement, one unit
    at a time in list order, each seeing the changes made by the units
    before it); then pruning of dead units and expired projectiles; then
    the win check. The step time `dt` (milliseconds) is a parameter. */
module Simulation {
  import opened Common
  import opened Balance
  import opened State
  import opened Targeting

  // -----------------------------------------------------------------------
  // Shared vocabulary for the contracts
  // -----------------------------------------------------------------------

  /** Two unit lists hold the same units in the same places; at most their
      position, hp and attack cooldown differ. */
  ghost predicate SameRoster(a: seq<Unit>, b: seq<Unit>)
  {
    && |a| == |b|
    && forall k :: 0 <= k < |a| ==>
         b[k] == a[k].(x := b[k].x, hp := b[k].hp, attackCooldown := b[k].attackCooldown)
  }

  ghost predicate AllValidUnits(units: seq<Unit>)
  {
    forall k :: 0 <= k < |units| ==> ValidUnit(units[k])
  }

  /** Only experience and kill count of `p` changed. */
  ghost predicate OnlyCombatChanged(p: Player, p': Player)
  {
    p' == p.(xp := p'.xp, kills := p'.kills)
  }

  /** Experience and kill count of `p` did not go down. */
  ghost predicate CombatGains(p: Player, p': Player)
  {
    p'.xp >= p.xp && p'.kills >= p.kills
  }

  /** The turret cooldown after the decay step: lowered by `dt` when
      positive (with no floor at zero), left alone otherwise. */
  function DecayTurretCooldown(tc: real, dt: real): real
  {
    if tc > 0.0 then tc - dt else tc
  }

  // -----------------------------------------------------------------------
  // Per-player phase: economy, cooldowns, turret
  // -----------------------------------------------------------------------

  /** Income, special cooldown (floored at zero) and turret cooldown (not
      floored) of one player. */
  function Economy(p: Player, dt: real): Player
  {
    p.(gold := p.gold + p.income * (dt / 1000.0),
       specialCooldown := if p.specialCooldown > 0.0 then Max(0.0, p.specialCooldown - dt)
                          else p.specialCooldown,
       base := p.base.(turretCooldown := DecayTurretCooldown(p.base.turretCooldown, dt)))
  }

  /** The turret of player `s` fires in this state: its cooldown has run
      out and an enemy unit is within range. */
  predicate TurretFires(g: Game, s: Slot)
  {
    g.PlayerOf(s).base.turretCooldown <= 0.0
    && FindTurretTarget(g.units, Enemy(s), g.PlayerOf(s).base.x).Some?
  }

  /** Turret fire of player `s`: when its cooldown has run out and an enemy
      unit is in range, damage the nearest one, credit experience (but never
      a kill), leave a projectile and restart the cooldown. */
  function TurretFire(g: Game, s: Slot): (r: Game)
    ensures !TurretFires(g, s) ==> r == g
    ensures r.PlayerOf(Enemy(s)) == g.PlayerOf(Enemy(s))
    ensures |r.units| == |g.units|
    ensures r.nextUnitId == g.nextUnitId && r.gameTime == g.gameTime
    ensures r.winner == g.winner && r.paused == g.paused
    ensures TurretFires(g, s) ==>
      var p := g.PlayerOf(s);
      var j := FindTurretTarget(g.units, Enemy(s), p.base.x).value;
      var dmg := 15 + 10 * (p.turretLevel - 1) + 6 * p.era;
      && r.units[j] == g.units[j].(hp := g.units[j].hp - dmg as real)
      && (forall k :: 0 <= k < |g.units| && k != j ==> r.units[k] == g.units[k])
      && r.PlayerOf(s) == p.(xp := p.xp + 0.15 * dmg as real,
                             base := p.base.(turretCooldown := TurretCooldownAfterShot(p.turretLevel)))
      && r.projectiles == g.projectiles + [Projectile(s, 200.0)]
  {
    var p := g.PlayerOf(s);
    if p.base.turretCooldown > 0.0 then g
    else
      match FindTurretTarget(g.units, Enemy(s), p.base.x)
      case None => g
      case Some(j) =>
        var dmg := TurretDamage(p.turretLevel, p.era);
        var p' := p.(xp := p.xp + dmg as real * XpPerDamageToUnit,
                     base := p.base.(turretCooldown := TurretCooldownAfterShot(p.turretLevel)));
        g.WithPlayer(s, p').(
          units := g.units[j := g.units[j].(hp := g.units[j].hp - dmg as real)],
          projectiles := g.projectiles + [Projectile(s, ProjectileLife)])
  }

  /** The body of the per-player loop of `updateGame` for player `s`. */
  function PlayerPhase(g: Game, s: Slot, dt: real): (r: Game)
    ensures r.PlayerOf(Enemy(s)) == g.PlayerOf(Enemy(s))
    ensures var p := g.PlayerOf(s); var p' := r.PlayerOf(s);
      && p' == p.(gold := p'.gold, xp := p'.xp, specialCooldown := p'.specialCooldown,
                  base := p.base.(turretCooldown := p'.base.turretCooldown))
      && p'.gold == p.gold + p.income * (dt / 1000.0)
      && p'.specialCooldown == (if p.specialCooldown > 0.0 then Max(0.0, p.specialCooldown - dt) else p.specialCooldown)
      && p'.xp >= p.xp
      && (p'.base.turretCooldown == DecayTurretCooldown(p.base.turretCooldown, dt)
          || p'.base.turretCooldown == TurretCooldownAfterShot(p.turretLevel))
    ensures SameRoster(g.units, r.units)
    ensures forall k :: 0 <= k < |g.units| ==> r.units[k].hp <= g.units[k].hp
    ensures forall k :: 0 <= k < |g.units| ==> r.units[k].x == g.units[k].x
    ensures r.nextUnitId == g.nextUnitId && r.gameTime == g.gameTime
    ensures r.winner == g.winner && r.paused == g.paused
  {
    var g1 := g.WithPlayer(s, Economy(g.PlayerOf(s), dt));
    assert g1.units == g.units;
    TurretFire(g1, s)
  }

  // -----------------------------------------------------------------------
  // Unit loop
  // -----------------------------------------------------------------------

  /** Regeneration: a damaged unit with regen heals, capped at its max hp.
      A unit already at or below zero hp still regenerates. */
  function Regenerate(u: Unit, dt: real): Unit
  {
    if u.regen > 0.0 && u.hp < u.maxHp
    then u.(hp := Min(u.maxHp, u.hp + u.regen * (dt / 1000.0)))
    else u
  }

  /** The unit at the start of its iteration: regenerated, and its attack
      cooldown lowered by `dt` when positive (with no floor at zero). */
  function Prepare(u: Unit, dt: real): (v: Unit)
    ensures v == u.(hp := v.hp, attackCooldown := v.attackCooldown)
    ensures v.hp == (if u.regen > 0.0 && u.hp < u.maxHp then Min(u.maxHp, u.hp + u.regen * (dt / 1000.0)) else u.hp)
    ensures v.attackCooldown == (if u.attackCooldown > 0.0 then u.attackCooldown - dt else u.attackCooldown)
    ensures ValidUnit(u) ==> ValidUnit(v)
  {
    var u1 := Regenerate(u, dt);
    if u1.attackCooldown > 0.0 then u1.(attackCooldown := u1.attackCooldown - dt) else u1
  }

  /** Unit `i` walks towards the enemy: `speed * direction * dt / 16`. */
  function March(g: Game, i: nat, dt: real): (r: Game)
    requires i < |g.units|
    ensures r == g.(units := r.units)
    ensures |r.units| == |g.units|
    ensures r.units[i] == g.units[i].(x := r.units[i].x)
    ensures forall k :: 0 <= k < |g.units| && k != i ==> r.units[k] == g.units[k]
  {
    var u := g.units[i];
    g.(units := g.units[i := u.(x := u.x + u.speed * u.direction as real * (dt / 16.0))])
  }

  /** Unit `i` hits the enemy base. The source hits a copy of the base, so
      only the attacker's owner gains experience; the base keeps its hp. */
  function StrikeBase(g: Game, i: nat): (r: Game)
    requires i < |g.units|
    ensures |r.units| == |g.units|
    ensures r.units[i] == g.units[i].(attackCooldown := g.units[i].attackSpeed)
    ensures forall k :: 0 <= k < |g.units| && k != i ==> r.units[k] == g.units[k]
    ensures var s := g.units[i].owner;
      && r.PlayerOf(s) == g.PlayerOf(s).(xp := g.PlayerOf(s).xp + 0.25 * g.units[i].damage as real)
      && r.PlayerOf(Enemy(s)) == g.PlayerOf(Enemy(s))
    ensures OnlyCombatChanged(g.p1, r.p1) && OnlyCombatChanged(g.p2, r.p2)
    ensures g.units[i].damage >= 0 ==> CombatGains(g.p1, r.p1) && CombatGains(g.p2, r.p2)
    ensures r.projectiles == g.projectiles && r.nextUnitId == g.nextUnitId
    ensures r.gameTime == g.gameTime && r.winner == g.winner && r.paused == g.paused
  {
    var u := g.units[i];
    var owner := g.PlayerOf(u.owner);
    g.WithPlayer(u.owner, owner.(xp := owner.xp + u.damage as real * XpPerDamageToBase))
     .(units := g.units[i := u.(attackCooldown := u.attackSpeed)])
  }

  /** Unit `i` hits unit `j`, which loses the attacker's damage. Every hit
      that leaves the target at or below zero hp counts as a kill, even when
      the target was already dead. */
  function StrikeUnit(g: Game, i: nat, j: nat): (r: Game)
    requires i < |g.units| && j < |g.units| && i != j
    ensures |r.units| == |g.units|
    ensures r.units[i] == g.units[i].(attackCooldown := g.units[i].attackSpeed)
    ensures r.units[j] == g.units[j].(hp := g.units[j].hp - g.units[i].damage as real)
    ensures forall k :: 0 <= k < |g.units| && k != i && k != j ==> r.units[k] == g.units[k]
    ensures OnlyCombatChanged(g.p1, r.p1) && OnlyCombatChanged(g.p2, r.p2)
    ensures g.units[i].damage >= 0 ==> CombatGains(g.p1, r.p1) && CombatGains(g.p2, r.p2)
    ensures r.PlayerOf(g.units[i].owner).kills ==
      g.PlayerOf(g.units[i].owner).kills + (if r.units[j].hp <= 0.0 then 1 else 0)
    ensures r.PlayerOf(g.units[i].owner).xp ==
      g.PlayerOf(g.units[i].owner).xp + 0.15 * g.units[i].damage as real
        + (if r.units[j].hp <= 0.0 then 5.0 else 0.0)
    ensures r.PlayerOf(Enemy(g.units[i].owner)) == g.PlayerOf(Enemy(g.units[i].owner))
    ensures r.projectiles == g.projectiles && r.nextUnitId == g.nextUnitId
    ensures r.gameTime == g.gameTime && r.winner == g.winner && r.paused == g.paused
  {
    var u := g.units[i];
    var owner := g.PlayerOf(u.owner);
    var hp := g.units[j].hp - u.damage as real;
    var xp := owner.xp + u.damage as real * XpPerDamageToUnit;
    var owner' := if hp <= 0.0 then owner.(xp := xp + XpPerKill, kills := owner.kills + 1)
                  else owner.(xp := xp);
    g.WithPlayer(u.owner, owner')
     .(units := g.units[j := g.units[j].(hp := hp)][i := u.(attackCooldown := u.attackSpeed)])
  }

  /** What the prepared unit `i` does: attack its target when its cooldown
      has run out, wait when it has not, march when there is no target. */
  function Act(g: Game, i: nat, dt: real): (r: Game)
    requires i < |g.units|
    // The action follows the target and the cooldown: walk without a
    // target, wait while the cooldown runs, strike when it has run out.
    ensures |r.units| == |g.units|
    ensures var u := g.units[i];
      var t := FindTarget(g.units, u.owner, u.x, u.range, g.PlayerOf(Enemy(u.owner)).base.x);
      && (t.NoTarget? ==>
            && r.units[i].x == u.x + u.speed * u.direction as real * (dt / 16.0)
            && r.p1 == g.p1 && r.p2 == g.p2)
      && (!t.NoTarget? && u.attackCooldown > 0.0 ==> r == g)
      && (!t.NoTarget? && u.attackCooldown <= 0.0 ==> r.units[i].attackCooldown == u.attackSpeed)
      && (t.UnitTarget? && u.attackCooldown <= 0.0 ==>
            && t.index != i
            && r.units[t.index].hp == g.units[t.index].hp - u.damage as real)
      && (t.BaseTarget? && u.attackCooldown <= 0.0 ==>
            r.PlayerOf(u.owner).xp == g.PlayerOf(u.owner).xp + 0.25 * u.damage as real)
    ensures SameRoster(g.units, r.units)
    ensures r.units[i].hp == g.units[i].hp
    ensures forall k :: 0 <= k < |g.units| && k != i ==>
      r.units[k].x == g.units[k].x && r.units[k].attackCooldown == g.units[k].attackCooldown
    ensures g.units[i].damage >= 0 ==>
      forall k :: 0 <= k < |g.units| ==> r.units[k].hp <= g.units[k].hp
    ensures OnlyCombatChanged(g.p1, r.p1) && OnlyCombatChanged(g.p2, r.p2)
    ensures g.units[i].damage >= 0 ==> CombatGains(g.p1, r.p1) && CombatGains(g.p2, r.p2)
    ensures r.projectiles == g.projectiles && r.nextUnitId == g.nextUnitId
    ensures r.gameTime == g.gameTime && r.winner == g.winner && r.paused == g.paused
  {
    var u := g.units[i];
    match FindTarget(g.units, u.owner, u.x, u.range, g.PlayerOf(Enemy(u.owner)).base.x)
    case NoTarget => March(g, i, dt)
    case BaseTarget => if u.attackCooldown <= 0.0 then StrikeBase(g, i) else g
    case UnitTarget(j) => if u.attackCooldown <= 0.0 then StrikeUnit(g, i, j) else g
  }

  /** One iteration of the unit loop for the unit at index `i`. */
  function UnitStep(g: Game, i: nat, dt: real): (r: Game)
    requires i < |g.units|
    ensures SameRoster(g.units, r.units)
    ensures r.units[i].hp == Regenerate(g.units[i], dt).hp
    ensures forall k :: 0 <= k < |g.units| && k != i ==>
      r.units[k].x == g.units[k].x && r.units[k].attackCooldown == g.units[k].attackCooldown
    ensures g.units[i].damage >= 0 ==>
      forall k :: 0 <= k < |g.units| && k != i ==> r.units[k].hp <= g.units[k].hp
    ensures OnlyCombatChanged(g.p1, r.p1) && OnlyCombatChanged(g.p2, r.p2)
    ensures g.units[i].damage >= 0 ==> CombatGains(g.p1, r.p1) && CombatGains(g.p2, r.p2)
    ensures AllValidUnits(g.units) ==> AllValidUnits(r.units)
    ensures r.projectiles == g.projectiles && r.nextUnitId == g.nextUnitId
    ensures r.gameTime == g.gameTime && r.winner == g.winner && r.paused == g.paused
  {
    Act(g.(units := g.units[i := Prepare(g.units[i], dt)]), i, dt)
  }

  /** The match at the start of iteration `k` of a unit loop that started
      at index `i`: iterations `i` to `k - 1` applied in list order. Those
      iterations never raise the hp of a unit whose turn is still to come. */
  function BeforeIteration(g: Game, dt: real, i: nat, k: nat): (r: Game)
    requires i <= k <= |g.units|
    ensures |r.units| == |g.units|
    decreases k - i
  {
    if i == k then g else BeforeIteration(UnitStep(g, i, dt), dt, i + 1, k)
  }

  /** Unit `k` ends its own iteration, in a loop started at index `i`, at
      or below zero hp. */
  ghost predicate DeadAfterOwnTurn(g: Game, dt: real, i: nat, k: nat)
    requires i <= k < |g.units|
  {
    BeforeIteration(g, dt, i, k + 1).units[k].hp <= 0.0
  }

  /** The unit loop from index `i` on. Besides the match it returns, for
      each index from `i`, whether that unit was at or below zero hp at the
      end of its own iteration (the source's `toRemove` list). */
  function UnitLoop(g: Game, dt: real, i: nat): (r: (Game, seq<bool>))
    requires i <= |g.units|
    ensures SameRoster(g.units, r.0.units)
    ensures |r.1| == |g.units| - i
    // Later iterations never heal a unit, so a marked unit is dead when the
    // loop ends; UnitLoopMarksExactly states when a unit is marked.
    ensures AllValidUnits(g.units) ==>
      forall k :: 0 <= k < i ==> r.0.units[k].hp <= g.units[k].hp
    ensures AllValidUnits(g.units) ==>
      forall m :: 0 <= m < |r.1| && r.1[m] ==> r.0.units[i + m].hp <= 0.0
    ensures AllValidUnits(g.units) ==> AllValidUnits(r.0.units)
    ensures OnlyCombatChanged(g.p1, r.0.p1) && OnlyCombatChanged(g.p2, r.0.p2)
    ensures AllValidUnits(g.units) ==> CombatGains(g.p1, r.0.p1) && CombatGains(g.p2, r.0.p2)
    ensures r.0.projectiles == g.projectiles && r.0.nextUnitId == g.nextUnitId
    ensures r.0.gameTime == g.gameTime && r.0.winner == g.winner && r.0.paused == g.paused
    decreases |g.units| - i
  {
    if i == |g.units| then (g, [])
    else
      var g' := UnitStep(g, i, dt);
      var rest := UnitLoop(g', dt, i + 1);
      var marks := [g'.units[i].hp <= 0.0] + rest.1;
      MarkedStayDead(AllValidUnits(g.units), g'.units[i].hp, rest.0.units, rest.1, marks, i);
      (rest.0, marks)
  }

  /** A unit marked at the end of its own turn is still dead when the loop
      ends, since later turns only lower hp. */
  lemma MarkedStayDead(valid: bool, hp: real, units: seq<Unit>, rest: seq<bool>, marks: seq<bool>, i: nat)
    requires i + |rest| < |units| && marks == [hp <= 0.0] + rest
    requires valid ==> units[i].hp <= hp
    requires valid ==> forall m :: 0 <= m < |rest| && rest[m] ==> units[i + 1 + m].hp <= 0.0
    ensures valid ==> forall m :: 0 <= m < |marks| && marks[m] ==> units[i + m].hp <= 0.0
  {
    if valid {
      MarksShift(hp, units, rest, marks, i);
    }
  }

  lemma MarksShift(hp: real, units: seq<Unit>, rest: seq<bool>, marks: seq<bool>, i: nat)
    requires i + |rest| < |units| && marks == [hp <= 0.0] + rest
    requires units[i].hp <= hp
    requires forall m :: 0 <= m < |rest| && rest[m] ==> units[i + 1 + m].hp <= 0.0
    ensures forall m :: 0 <= m < |marks| && marks[m] ==> units[i + m].hp <= 0.0
  {
    forall m | 0 <= m < |marks| && marks[m] ensures units[i + m].hp <= 0.0 {
      if m > 0 {
        assert marks[m] == rest[m - 1];
      }
    }
  }

  /** Seen from the loop started one unit later, a later unit's own turn
      ends in the same state. */
  lemma LaterTurnShifts(g: Game, dt: real, i: nat, k: nat)
    requires i < k < |g.units|
    ensures DeadAfterOwnTurn(g, dt, i, k) == DeadAfterOwnTurn(UnitStep(g, i, dt), dt, i + 1, k)
  {
    assert BeforeIteration(g, dt, i, k + 1) == BeforeIteration(UnitStep(g, i, dt), dt, i + 1, k + 1);
  }

  /** The first unit's own turn ends in the state after one step. */
  lemma FirstTurn(g: Game, dt: real, i: nat)
    requires i < |g.units|
    ensures DeadAfterOwnTurn(g, dt, i, i) == (UnitStep(g, i, dt).units[i].hp <= 0.0)
  {
    var g' := UnitStep(g, i, dt);
    assert BeforeIteration(g, dt, i, i + 1) == BeforeIteration(g', dt, i + 1, i + 1) == g';
  }

  /** The marks of the loop from `i` on, computed without the match the
      loop returns. */
  ghost function MarksFrom(g: Game, dt: real, i: nat): (r: seq<bool>)
    requires i <= |g.units|
    ensures |r| == |g.units| - i
    decreases |g.units| - i
  {
    if i == |g.units| then []
    else
      var g' := UnitStep(g, i, dt);
      [g'.units[i].hp <= 0.0] + MarksFrom(g', dt, i + 1)
  }

  lemma {:induction false} UnitLoopMarksFrom(g: Game, dt: real, i: nat)
    requires i <= |g.units|
    ensures UnitLoop(g, dt, i).1 == MarksFrom(g, dt, i)
    decreases |g.units| - i
  {
    if i < |g.units| {
      UnitLoopMarksFrom(UnitStep(g, i, dt), dt, i + 1);
    }
  }

  lemma ConsAt(head: bool, rest: seq<bool>, m: nat)
    requires m <= |rest|
    ensures ([head] + rest)[m] == if m == 0 then head else rest[m - 1]
  {
  }

  /** The mark the loop from `i` on gives unit `k` is whether that unit
      ended its own turn dead. */
  ghost predicate MarkMatches(g: Game, dt: real, i: nat, k: nat)
    requires i <= k < |g.units|
  {
    k - i < |MarksFrom(g, dt, i)| && MarksFrom(g, dt, i)[k - i] == DeadAfterOwnTurn(g, dt, i, k)
  }

  /** The first mark is whether the first unit ended its own turn dead. */
  lemma MarkFirst(g: Game, dt: real, i: nat)
    requires i < |g.units|
    ensures MarkMatches(g, dt, i, i)
  {
    var g' := UnitStep(g, i, dt);
    var rest := MarksFrom(g', dt, i + 1);
    assert MarksFrom(g, dt, i) == [g'.units[i].hp <= 0.0] + rest;
    FirstTurn(g, dt, i);
    ConsAt(g'.units[i].hp <= 0.0, rest, 0);
  }

  /** A later mark is the mark the loop from the next unit on gives. */
  lemma MarkLater(g: Game, dt: real, i: nat, k: nat)
    requires i < k < |g.units|
    requires MarkMatches(UnitStep(g, i, dt), dt, i + 1, k)
    ensures MarkMatches(g, dt, i, k)
  {
    var g' := UnitStep(g, i, dt);
    var rest := MarksFrom(g', dt, i + 1);
    assert MarksFrom(g, dt, i) == [g'.units[i].hp <= 0.0] + rest;
    LaterTurnShifts(g, dt, i, k);
    ConsAt(g'.units[i].hp <= 0.0, rest, k - i);
  }

  /** The mark of unit `k` is whether it ended its own turn dead. */
  lemma {:induction false} MarkAt(g: Game, dt: real, i: nat, k: nat)
    requires i <= k < |g.units|
    ensures MarkMatches(g, dt, i, k)
    decreases k - i
  {
    if i == k {
      MarkFirst(g, dt, i);
    } else {
      MarkAt(UnitStep(g, i, dt), dt, i + 1, k);
      MarkLater(g, dt, i, k);
    }
  }

  /** The source's `toRemove` list: a unit is marked exactly when it ended
      its own iteration at or below zero hp, whatever happens to it later. */
  lemma UnitLoopMarksExactly(g: Game, dt: real, i: nat)
    requires i <= |g.units|
    ensures forall m :: 0 <= m < |UnitLoop(g, dt, i).1| ==>
      (UnitLoop(g, dt, i).1[m] <==> DeadAfterOwnTurn(g, dt, i, i + m))
  {
    UnitLoopMarksFrom(g, dt, i);
    MarksFromExactly(g, dt, i);
  }

  lemma MarksFromExactly(g: Game, dt: real, i: nat)
    requires i <= |g.units|
    ensures forall m :: 0 <= m < |MarksFrom(g, dt, i)| ==>
      (MarksFrom(g, dt, i)[m] <==> DeadAfterOwnTurn(g, dt, i, i + m))
  {
    forall m | 0 <= m < |MarksFrom(g, dt, i)|
      ensures MarksFrom(g, dt, i)[m] <==> DeadAfterOwnTurn(g, dt, i, i + m)
    {
      MarkAt(g, dt, i, i + m);
    }
  }

  // -----------------------------------------------------------------------
  // Pruning and the win check
  // -----------------------------------------------------------------------

  /** `game.units.filter(u => !toRemove.includes(u))`: drop the units
      marked during the loop, keeping the order of the rest. */
  function PruneMarked(units: seq<Unit>, marks: seq<bool>): (r: seq<Unit>)
    requires |marks| == |units|
    ensures |r| <= |units|
    ensures forall u :: u in r ==> u in units
  {
    if |units| == 0 then []
    else (if marks[0] then [] else [units[0]]) + PruneMarked(units[1..], marks[1..])
  }

  /** Drop every unit at or below zero hp, keeping the order of the rest. */
  function PruneDead(units: seq<Unit>): (r: seq<Unit>)
    ensures |r| <= |units|
    ensures forall u :: u in r ==> u in units && u.hp > 0.0
  {
    if |units| == 0 then []
    else (if units[0].hp <= 0.0 then [] else [units[0]]) + PruneDead(units[1..])
  }

  /** No living unit is lost by the intended pruning. */
  lemma {:induction false} PruneDeadKeepsLiving(units: seq<Unit>, k: nat)
    requires k < |units| && units[k].hp > 0.0
    ensures units[k] in PruneDead(units)
  {
    if k > 0 {
      PruneDeadKeepsLiving(units[1..], k - 1);
    }
  }

  /** No unmarked unit is lost by the pruning as written. */
  lemma {:induction false} PruneMarkedKeepsUnmarked(units: seq<Unit>, marks: seq<bool>, k: nat)
    requires |marks| == |units|
    requires k < |units| && !marks[k]
    ensures units[k] in PruneMarked(units, marks)
  {
    if k > 0 {
      PruneMarkedKeepsUnmarked(units[1..], marks[1..], k - 1);
    }
  }

  /** `game.projectiles.filter(p => { p.life -= dt; return p.life > 0 })` */
  function AgeProjectiles(ps: seq<Projectile>, dt: real): (r: seq<Projectile>)
    ensures |r| <= |ps|
    ensures forall p :: p in r ==> p.life > 0.0
    // Every projectile kept is one of the input, `dt` older (nothing is
    // invented); AgeProjectilesKeepsLive states that none with life left is lost.
    ensures forall p :: p in r ==> exists q :: q in ps && q.life - dt > 0.0 && p == q.(life := q.life - dt)
  {
    if |ps| == 0 then []
    else
      var p := ps[0].(life := ps[0].life - dt);
      var rest := AgeProjectiles(ps[1..], dt);
      (if p.life > 0.0 then [p] else []) + rest
  }

  /** Player 1's base is checked first: when both bases are down, player 2 wins. */
  function WinCheck(g: Game): (r: Game)
    ensures r == g.(winner := r.winner)
    ensures g.p1.base.hp <= 0.0 ==> r.winner == Some(2)
    ensures g.p1.base.hp > 0.0 && g.p2.base.hp <= 0.0 ==> r.winner == Some(1)
    ensures g.p1.base.hp > 0.0 && g.p2.base.hp > 0.0 ==> r.winner == g.winner
  {
    if g.p1.base.hp <= 0.0 then g.(winner := Some(2))
    else if g.p2.base.hp <= 0.0 then g.(winner := Some(1))
    else g
  }

  // -----------------------------------------------------------------------
  // The whole step
  // -----------------------------------------------------------------------

  /** The match as the unit loop of a step finds it: clock advanced, both
      player phases done. The roster is the one the step started with, and
      no unit has gained hp. */
  function LoopStart(g: Game, dt: real): (r: Game)
    ensures SameRoster(g.units, r.units)
    ensures forall k :: 0 <= k < |g.units| ==> r.units[k].hp <= g.units[k].hp
  {
    var g1 := g.(gameTime := g.gameTime + dt);
    var ga := PlayerPhase(g1, 1, dt);
    var gb := PlayerPhase(ga, 2, dt);
    assert SameRoster(g.units, ga.units) && SameRoster(ga.units, gb.units);
    gb
  }

  /** Clock, both player phases and the unit loop: everything before pruning. */
  function Advance(g: Game, dt: real): (r: (Game, seq<bool>))
    ensures |r.1| == |r.0.units| == |g.units|
  {
    UnitLoop(LoopStart(g, dt), dt, 0)
  }

  /** `updateGame(room, dt)` as written: units are pruned by the marks made
      inside the loop, so a unit killed by a later unit of the same loop
      survives the step with hp at or below zero. */
  function UpdateGameAsWritten(g: Game, dt: real): (r: Game)
    ensures g.winner.Some? || g.paused ==> r == g
    ensures !(g.winner.Some? || g.paused) ==>
      && r.gameTime == g.gameTime + dt
      && r.nextUnitId == g.nextUnitId
      && |r.units| <= |g.units|
      && (forall p :: p in r.projectiles ==> p.life > 0.0)
    // The survivors are units of the loop, and every unit the loop did not
    // mark survives (UnitLoopMarksExactly says which units are marked).
    ensures !(g.winner.Some? || g.paused) ==>
      forall u :: u in r.units ==> u in Advance(g, dt).0.units
    ensures !(g.winner.Some? || g.paused) ==>
      forall k :: 0 <= k < |Advance(g, dt).0.units| && !Advance(g, dt).1[k] ==>
        Advance(g, dt).0.units[k] in r.units
  {
    if g.winner.Some? || g.paused then g
    else
      var g3 := Advance(g, dt).0;
      var marks := Advance(g, dt).1;
      var kept := PruneMarked(g3.units, marks);
      assert forall k :: 0 <= k < |g3.units| && !marks[k] ==> g3.units[k] in kept by {
        forall k | 0 <= k < |g3.units| && !marks[k] ensures g3.units[k] in kept {
          PruneMarkedKeepsUnmarked(g3.units, marks, k);
        }
      }
      var r := WinCheck(g3.(units := kept, projectiles := AgeProjectiles(g3.projectiles, dt)));
      assert r.units == kept && r.gameTime == g3.gameTime;
      r
  }

  /** `updateGame(room, dt)` with the pruning its comment intends: every
      unit at or below zero hp after the unit loop is removed. */
  function UpdateGame(g: Game, dt: real): (r: Game)
    ensures g.winner.Some? || g.paused ==> r == g
    ensures !(g.winner.Some? || g.paused) ==>
      && r.gameTime == g.gameTime + dt
      && r.nextUnitId == g.nextUnitId
      && |r.units| <= |g.units|
      && (forall u :: u in r.units ==> u.hp > 0.0)
      && (forall p :: p in r.projectiles ==> p.life > 0.0)
    // The survivors are exactly the units of the loop with hp left.
    ensures !(g.winner.Some? || g.paused) ==>
      forall u :: u in r.units ==> u in Advance(g, dt).0.units
    ensures !(g.winner.Some? || g.paused) ==>
      forall k :: 0 <= k < |Advance(g, dt).0.units| && Advance(g, dt).0.units[k].hp > 0.0 ==>
        Advance(g, dt).0.units[k] in r.units
  {
    if g.winner.Some? || g.paused then g
    else
      var g3 := Advance(g, dt).0;
      var kept := PruneDead(g3.units);
      assert forall k :: 0 <= k < |g3.units| && g3.units[k].hp > 0.0 ==> g3.units[k] in kept by {
        forall k | 0 <= k < |g3.units| && g3.units[k].hp > 0.0 ensures g3.units[k] in kept {
          PruneDeadKeepsLiving(g3.units, k);
        }
      }
      var r := WinCheck(g3.(units := kept, projectiles := AgeProjectiles(g3.projectiles, dt)));
      assert r.units == kept && r.gameTime == g3.gameTime;
      r
  }
}

=== FILE: simulation_properties.dfy ===
/** What one simulation step guarantees: the economy and cooldown rules,
    base hp untouched by unit hits, the win check's order, pruning, and
    preservation of the match invariant; plus the combat quirks of the
    unit loop and the pruning defect of the loop as written. */
module SimulationProperties {
  import opened Common
  import opened Balance
  import opened State
  import opened Targeting
  import opened Simulation

  // -----------------------------------------------------------------------
  // Pruning
  // -----------------------------------------------------------------------

  /** Every unit of a sub-list of the tail has a larger id than the head. */
  lemma AboveHead(units: seq<Unit>, rest: seq<Unit>, next: nat)
    requires |units| > 0 && IdsIncreasing(units, next)
    requires forall v :: v in rest ==> v in units[1..]
    ensures forall k :: 0 <= k < |rest| ==> rest[k].id > units[0].id
  {
    forall k | 0 <= k < |rest| ensures rest[k].id > units[0].id {
      assert rest[k] in units[1..];
      var j :| 0 <= j < |units[1..]| && units[1..][j] == rest[k];
      assert units[j + 1] == rest[k];
    }
  }

  /** A unit below every id of an increasing list can go in front of it. */
  lemma ConsKeepsIds(u: Unit, rest: seq<Unit>, next: nat)
    requires IdsIncreasing(rest, next) && u.id < next
    requires forall k :: 0 <= k < |rest| ==> u.id < rest[k].id
    ensures IdsIncreasing([u] + rest, next)
  {
    var r := [u] + rest;
    assert forall k :: 1 <= k < |r| ==> r[k] == rest[k - 1];
  }

  /** Dropping marked units keeps the survivors in order, so unit ids stay
      increasing and below the counter. */
  lemma {:induction false} PruneMarkedKeepsIds(units: seq<Unit>, marks: seq<bool>, next: nat)
    requires |marks| == |units|
    requires IdsIncreasing(units, next)
    ensures IdsIncreasing(PruneMarked(units, marks), next)
  {
    if |units| > 0 {
      assert IdsIncreasing(units[1..], next);
      PruneMarkedKeepsIds(units[1..], marks[1..], next);
      var rest := PruneMarked(units[1..], marks[1..]);
      AboveHead(units, rest, next);
      if !marks[0] {
        ConsKeepsIds(units[0], rest, next);
      }
    }
  }

  /** Dropping dead units keeps the survivors in order, so unit ids stay
      increasing and below the counter. */
  lemma {:induction false} PruneDeadKeepsIds(units: seq<Unit>, next: nat)
    requires IdsIncreasing(units, next)
    ensures IdsIncreasing(PruneDead(units), next)
  {
    if |units| > 0 {
      assert IdsIncreasing(units[1..], next);
      PruneDeadKeepsIds(units[1..], next);
      var rest := PruneDead(units[1..]);
      AboveHead(units, rest, next);
      if units[0].hp > 0.0 {
        ConsKeepsIds(units[0], rest, next);
      }
    }
  }

  /** The pruning as written removes every marked unit: ids are distinct,
      so no other unit can stand in for it. */
  lemma {:induction false} PruneMarkedDropsMarked(units: seq<Unit>, marks: seq<bool>, next: nat, k: nat)
    requires |marks| == |units|
    requires IdsIncreasing(units, next)
    requires k < |units| && marks[k]
    ensures units[k] !in PruneMarked(units, marks)
  {
    var rest := PruneMarked(units[1..], marks[1..]);
    assert IdsIncreasing(units[1..], next);
    AboveHead(units, rest, next);
    if k == 0 {
      assert units[0] !in rest;
    } else {
      PruneMarkedDropsMarked(units[1..], marks[1..], next, k - 1);
      assert units[0].id < units[k].id;
    }
  }

  /** A projectile whose life outlasts the step is kept, `dt` older. */
  lemma {:induction false} AgeProjectilesKeepsLive(ps: seq<Projectile>, dt: real, k: nat)
    requires k < |ps| && ps[k].life - dt > 0.0
    ensures ps[k].(life := ps[k].life - dt) in AgeProjectiles(ps, dt)
  {
    if k > 0 {
      AgeProjectilesKeepsLive(ps[1..], dt, k - 1);
    }
  }

  /** Ageing is a filter: it works projectile by projectile, so the kept
      projectiles stay in their order, and ageing a list in two parts ages
      the whole. */
  lemma {:induction false} AgeProjectilesConcat(a: seq<Projectile>, b: seq<Projectile>, dt: real)
    ensures AgeProjectiles(a + b, dt) == AgeProjectiles(a, dt) + AgeProjectiles(b, dt)
  {
    if |a| > 0 {
      assert (a + b)[1..] == a[1..] + b;
      AgeProjectilesConcat(a[1..], b, dt);
    } else {
      assert a + b == b;
    }
  }

  // -----------------------------------------------------------------------
  // Everything before pruning
  // -----------------------------------------------------------------------

  ghost predicate HpNotRaised(a: seq<Unit>, b: seq<Unit>)
    requires |a| == |b|
  {
    forall k :: 0 <= k < |a| ==> b[k].hp <= a[k].hp
  }

  lemma LowerHpKeepsValid(a: seq<Unit>, b: seq<Unit>)
    requires SameRoster(a, b) && HpNotRaised(a, b)
    requires AllValidUnits(a)
    ensures AllValidUnits(b)
  {
    forall k | 0 <= k < |b| ensures ValidUnit(b[k]) {
      assert ValidUnit(a[k]);
    }
  }

  /** The facts the step's first phases establish for one player. */
  ghost predicate PlayerStepped(p: Player, p': Player, dt: real)
  {
    && p' == p.(gold := p'.gold, xp := p'.xp, kills := p'.kills,
                specialCooldown := p'.specialCooldown,
                base := p.base.(turretCooldown := p'.base.turretCooldown))
    && p'.gold == p.gold + p.income * (dt / 1000.0)
    && p'.specialCooldown == (if p.specialCooldown > 0.0 then Max(0.0, p.specialCooldown - dt) else p.specialCooldown)
    && (p'.base.turretCooldown == DecayTurretCooldown(p.base.turretCooldown, dt)
        || p'.base.turretCooldown == TurretCooldownAfterShot(p.turretLevel))
  }

  /** Both player phases, before the unit loop. */
  lemma PhasesStepPlayers(g: Game, dt: real)
    ensures var gb := PlayerPhase(PlayerPhase(g, 1, dt), 2, dt);
      && PlayerStepped(g.p1, gb.p1.(kills := g.p1.kills), dt) && gb.p1.kills == g.p1.kills
      && PlayerStepped(g.p2, gb.p2.(kills := g.p2.kills), dt) && gb.p2.kills == g.p2.kills
      && gb.p1.xp >= g.p1.xp && gb.p2.xp >= g.p2.xp
  {
    var ga := PlayerPhase(g, 1, dt);
    var gb := PlayerPhase(ga, 2, dt);
    assert ga.p2 == g.p2;
    assert gb.p1 == ga.p1;
  }

  lemma PhasesStepUnits(g: Game, dt: real)
    ensures var gb := PlayerPhase(PlayerPhase(g, 1, dt), 2, dt);
      && SameRoster(g.units, gb.units)
      && HpNotRaised(g.units, gb.units)
      && gb.gameTime == g.gameTime && gb.nextUnitId == g.nextUnitId
      && gb.winner == g.winner && gb.paused == g.paused
  {
    var ga := PlayerPhase(g, 1, dt);
    var gb := PlayerPhase(ga, 2, dt);
    assert SameRoster(g.units, ga.units) && SameRoster(ga.units, gb.units);
  }

  /** Stepping a player then changing only experience and kills is still a step. */
  lemma SteppedThenCombat(p: Player, q: Player, q': Player, dt: real)
    requires PlayerStepped(p, q.(kills := p.kills), dt)
    requires OnlyCombatChanged(q, q')
    ensures PlayerStepped(p, q', dt)
  {
  }

  /** Everything `Advance` establishes before pruning. */
  lemma AdvanceFacts(g: Game, dt: real)
    ensures var g3 := Advance(g, dt).0;
      && PlayerStepped(g.p1, g3.p1, dt)
      && PlayerStepped(g.p2, g3.p2, dt)
      && SameRoster(g.units, g3.units)
      && (AllValidUnits(g.units) ==> AllValidUnits(g3.units))
      && (AllValidUnits(g.units) ==> g3.p1.xp >= g.p1.xp && g3.p2.xp >= g.p2.xp)
      && g3.gameTime == g.gameTime + dt
      && g3.nextUnitId == g.nextUnitId && g3.winner == g.winner && g3.paused == g.paused
  {
    var g1 := g.(gameTime := g.gameTime + dt);
    var gb := PlayerPhase(PlayerPhase(g1, 1, dt), 2, dt);
    var g3 := UnitLoop(gb, dt, 0).0;
    assert Advance(g, dt).0 == g3;
    PhasesStepPlayers(g1, dt);
    PhasesStepUnits(g1, dt);
    SteppedThenCombat(g.p1, gb.p1, g3.p1, dt);
    SteppedThenCombat(g.p2, gb.p2, g3.p2, dt);
    if AllValidUnits(g.units) {
      LowerHpKeepsValid(g.units, gb.units);
    }
  }

  // -----------------------------------------------------------------------
  // One step, both prunings
  // -----------------------------------------------------------------------

  /** A finished or paused match is frozen by the step. */
  lemma StepFrozenWhenOver(g: Game, dt: real)
    requires g.winner.Some? || g.paused
    ensures UpdateGame(g, dt) == g
    ensures UpdateGameAsWritten(g, dt) == g
  {
  }

  /** What a running step keeps of one player's economy: gold grows by
      exactly `income * dt / 1000`; a non-negative special cooldown stays
      non-negative; the turret cooldown is either the decayed one or a fresh
      one of at least 800 ms; base hp and max hp are unchanged (unit hits
      land on a copy of the base); levels, era and income are unchanged. */
  ghost predicate EconomyKept(p: Player, p': Player, dt: real)
  {
    && p'.gold == p.gold + p.income * (dt / 1000.0)
    && p'.base.hp == p.base.hp && p'.base.maxHp == p.base.maxHp
    && (p.specialCooldown >= 0.0 ==> p'.specialCooldown >= 0.0)
    && (p'.base.turretCooldown == DecayTurretCooldown(p.base.turretCooldown, dt)
        || p'.base.turretCooldown >= 800.0)
    && p'.era == p.era && p'.income == p.income
    && p'.turretLevel == p.turretLevel && p'.incomeLevel == p.incomeLevel
    && p'.baseHpLevel == p.baseHpLevel && p'.attackLevel == p.attackLevel
    && p'.healthLevel == p.healthLevel && p'.regenLevel == p.regenLevel
  }

  lemma SteppedKeepsEconomy(p: Player, p': Player, dt: real)
    requires PlayerStepped(p, p', dt)
    ensures EconomyKept(p, p', dt)
  {
  }

  /** Pruning and the win check leave the players as the unit loop left them. */
  lemma StepPlayersAreAdvanced(g: Game, dt: real)
    requires g.winner.None? && !g.paused
    ensures UpdateGame(g, dt).p1 == Advance(g, dt).0.p1
    ensures UpdateGame(g, dt).p2 == Advance(g, dt).0.p2
    ensures UpdateGameAsWritten(g, dt).p1 == Advance(g, dt).0.p1
    ensures UpdateGameAsWritten(g, dt).p2 == Advance(g, dt).0.p2
  {
  }

  /** Economy and cooldowns of a running step, for each player, under both
      prunings. */
  lemma StepEconomy(g: Game, dt: real, s: Slot)
    requires g.winner.None? && !g.paused
    ensures EconomyKept(g.PlayerOf(s), UpdateGame(g, dt).PlayerOf(s), dt)
    ensures EconomyKept(g.PlayerOf(s), UpdateGameAsWritten(g, dt).PlayerOf(s), dt)
  {
    AdvanceFacts(g, dt);
    StepPlayersAreAdvanced(g, dt);
    var g3 := Advance(g, dt).0;
    SteppedKeepsEconomy(g.PlayerOf(s), g3.PlayerOf(s), dt);
  }

  /** The win check, under both prunings: player 2 wins when player 1's
      base is down (checked first, so also when both are), else player 1
      wins when player 2's base is down. Since a step never changes base
      hp, the verdict is decided by the bases as the step found them. */
  lemma StepWinner(g: Game, dt: real)
    requires g.winner.None? && !g.paused
    ensures UpdateGame(g, dt).winner ==
      (if g.p1.base.hp <= 0.0 then Some(2) else if g.p2.base.hp <= 0.0 then Some(1) else None)
    ensures UpdateGameAsWritten(g, dt).winner == UpdateGame(g, dt).winner
  {
    AdvanceFacts(g, dt);
  }

  /** When both bases fall before the same step, player 2 is the winner. */
  lemma BothBasesDownPlayerTwoWins(g: Game, dt: real)
    requires g.winner.None? && !g.paused
    requires g.p1.base.hp <= 0.0 && g.p2.base.hp <= 0.0
    ensures UpdateGame(g, dt).winner == Some(2)
  {
    StepWinner(g, dt);
  }

  lemma SteppedKeepsValidPlayer(p: Player, p': Player, dt: real, num: Slot)
    requires ValidPlayer(p, num) && dt >= 0.0
    requires PlayerStepped(p, p', dt) && p'.xp >= p.xp
    ensures ValidPlayer(p', num)
  {
    assert p.income >= 8.0;
    assert p.income * (dt / 1000.0) >= 0.0;
  }

  /** The unit list after the unit loop of a valid match is valid, with ids
      as before. */
  lemma AdvanceKeepsUnitsValid(g: Game, dt: real)
    requires ValidGame(g)
    ensures AllValidUnits(Advance(g, dt).0.units)
    ensures IdsIncreasing(Advance(g, dt).0.units, Advance(g, dt).0.nextUnitId)
  {
    AdvanceFacts(g, dt);
    var g3 := Advance(g, dt).0;
    assert AllValidUnits(g.units);
    assert forall i :: 0 <= i < |g3.units| ==> g3.units[i].id == g.units[i].id;
  }

  lemma PruningKeepsUnitsValid(units: seq<Unit>, marks: seq<bool>, next: nat)
    requires |marks| == |units|
    requires AllValidUnits(units) && IdsIncreasing(units, next)
    ensures AllValidUnits(PruneDead(units)) && IdsIncreasing(PruneDead(units), next)
    ensures AllValidUnits(PruneMarked(units, marks)) && IdsIncreasing(PruneMarked(units, marks), next)
  {
    PruneDeadKeepsIds(units, next);
    PruneMarkedKeepsIds(units, marks, next);
    var dead := PruneDead(units);
    var marked := PruneMarked(units, marks);
    forall k | 0 <= k < |dead| ensures ValidUnit(dead[k]) {
      assert dead[k] in units;
    }
    forall k | 0 <= k < |marked| ensures ValidUnit(marked[k]) {
      assert marked[k] in units;
    }
  }

  /** A step with non-negative `dt` keeps a valid match valid, under both
      prunings, and never lowers a player's experience. */
  lemma StepPreservesValid(g: Game, dt: real)
    requires ValidGame(g) && dt >= 0.0
    ensures ValidGame(UpdateGame(g, dt))
    ensures ValidGame(UpdateGameAsWritten(g, dt))
    ensures UpdateGame(g, dt).p1.xp >= g.p1.xp && UpdateGame(g, dt).p2.xp >= g.p2.xp
  {
    if g.winner.None? && !g.paused {
      AdvanceFacts(g, dt);
      AdvanceKeepsUnitsValid(g, dt);
      StepPlayersAreAdvanced(g, dt);
      var (g3, marks) := Advance(g, dt);
      PruningKeepsUnitsValid(g3.units, marks, g3.nextUnitId);
      assert AllValidUnits(g.units);
      SteppedKeepsValidPlayer(g.p1, g3.p1, dt, 1);
      SteppedKeepsValidPlayer(g.p2, g3.p2, dt, 2);
    }
  }

  // -----------------------------------------------------------------------
  // Which units the step as written removes
  // -----------------------------------------------------------------------

  /** The turns before unit `k`'s own keep the roster valid and never raise
      the hp of a unit whose turn is still to come. */
  lemma {:induction false} BeforeIterationLowersLater(g: Game, dt: real, i: nat, k: nat)
    requires i <= k <= |g.units| && AllValidUnits(g.units)
    ensures SameRoster(g.units, BeforeIteration(g, dt, i, k).units)
    ensures AllValidUnits(BeforeIteration(g, dt, i, k).units)
    ensures forall j :: k <= j < |g.units| ==>
      BeforeIteration(g, dt, i, k).units[j].hp <= g.units[j].hp
    decreases k - i
  {
    if i < k {
      var g' := UnitStep(g, i, dt);
      BeforeIterationLowersLater(g', dt, i + 1, k);
      assert BeforeIteration(g, dt, i, k) == BeforeIteration(g', dt, i + 1, k);
    }
  }

  /** The turns before unit `k`'s own change no unit's identity or stats. */
  lemma {:induction false} BeforeIterationKeepsRoster(g: Game, dt: real, i: nat, k: nat)
    requires i <= k <= |g.units|
    ensures SameRoster(g.units, BeforeIteration(g, dt, i, k).units)
    decreases k - i
  {
    if i < k {
      var g' := UnitStep(g, i, dt);
      BeforeIterationKeepsRoster(g', dt, i + 1, k);
      assert BeforeIteration(g, dt, i, k) == BeforeIteration(g', dt, i + 1, k);
    }
  }

  /** Unit `k`'s own turn is the last of the turns up to it. */
  lemma {:induction false} BeforeIterationLast(g: Game, dt: real, i: nat, k: nat)
    requires i <= k < |g.units|
    ensures BeforeIteration(g, dt, i, k + 1) == UnitStep(BeforeIteration(g, dt, i, k), k, dt)
    decreases k - i
  {
    if i < k {
      BeforeIterationLast(UnitStep(g, i, dt), dt, i + 1, k);
    } else {
      assert BeforeIteration(g, dt, i, k + 1) == BeforeIteration(UnitStep(g, i, dt), dt, i + 1, k + 1);
    }
  }

  /** The step as written removes every unit the loop marked: no unit with
      its id is left. */
  lemma StepDropsMarked(g: Game, dt: real, k: nat)
    requires ValidGame(g) && g.winner.None? && !g.paused
    requires k < |g.units| && Advance(g, dt).1[k]
    ensures forall u :: u in UpdateGameAsWritten(g, dt).units ==> u.id != g.units[k].id
  {
    AdvanceFacts(g, dt);
    AdvanceKeepsUnitsValid(g, dt);
    var g3 := Advance(g, dt).0;
    var marks := Advance(g, dt).1;
    PruneMarkedDropsMarked(g3.units, marks, g3.nextUnitId, k);
    var r := UpdateGameAsWritten(g, dt);
    assert r.units == PruneMarked(g3.units, marks);
    assert g3.units[k].id == g.units[k].id;
    forall u | u in r.units ensures u.id != g.units[k].id {
      var j :| 0 <= j < |g3.units| && g3.units[j] == u;
      assert j != k;
    }
  }

  /** The loop marks a unit with no regeneration that starts its own turn
      at or below zero hp. */
  lemma DeadWithoutRegenIsMarked(g: Game, dt: real, k: nat)
    requires k < |g.units| && g.units[k].regen == 0.0
    requires BeforeIteration(g, dt, 0, k).units[k].hp <= 0.0
    ensures UnitLoop(g, dt, 0).1[k]
  {
    var b := BeforeIteration(g, dt, 0, k);
    assert SameRoster(g.units, b.units) by {
      BeforeIterationKeepsRoster(g, dt, 0, k);
    }
    assert b.units[k].regen == 0.0;
    BeforeIterationLast(g, dt, 0, k);
    assert UnitStep(b, k, dt).units[k].hp == b.units[k].hp;
    UnitLoopMarksExactly(g, dt, 0);
  }

  /** A unit with no regeneration that starts its own turn at or below zero
      hp (hit by the special before the step, by the enemy turret in this
      step, or by a unit earlier in the list) is removed by the step as
      written. A unit killed by a unit later in the list is not: see
      CorpseKeptAsWritten. */
  lemma DeadWithoutRegenIsPruned(g: Game, dt: real, k: nat)
    requires ValidGame(g) && g.winner.None? && !g.paused
    requires k < |g.units| && g.units[k].regen == 0.0
    requires BeforeIteration(LoopStart(g, dt), dt, 0, k).units[k].hp <= 0.0
    ensures Advance(g, dt).1[k]
    ensures forall u :: u in UpdateGameAsWritten(g, dt).units ==> u.id != g.units[k].id
  {
    var gb := LoopStart(g, dt);
    DeadWithoutRegenIsMarked(gb, dt, k);
    assert Advance(g, dt).1 == UnitLoop(gb, dt, 0).1;
    StepDropsMarked(g, dt, k);
  }

  /** In particular a unit with no regeneration that enters the step at or
      below zero hp, as the special leaves its victims, is removed. */
  lemma SpecialVictimIsPruned(g: Game, dt: real, k: nat)
    requires ValidGame(g) && g.winner.None? && !g.paused
    requires k < |g.units| && g.units[k].regen == 0.0 && g.units[k].hp <= 0.0
    ensures forall u :: u in UpdateGameAsWritten(g, dt).units ==> u.id != g.units[k].id
  {
    var gb := LoopStart(g, dt);
    assert AllValidUnits(g.units);
    LowerHpKeepsValid(g.units, gb.units);
    BeforeIterationLowersLater(gb, dt, 0, k);
    DeadWithoutRegenIsPruned(g, dt, k);
  }

  // -----------------------------------------------------------------------
  // Combat quirks of the unit loop
  // -----------------------------------------------------------------------

  /** The unit at index `i` after the start of its iteration. */
  function Prepared(g: Game, i: nat, dt: real): Unit
    requires i < |g.units|
  {
    Prepare(g.units[i], dt)
  }

  /** The target unit `i` picks in its iteration. */
  function TargetInStep(g: Game, i: nat, dt: real): Target
    requires i < |g.units|
  {
    var units := g.units[i := Prepared(g, i, dt)];
    var u := Prepared(g, i, dt);
    FindTarget(units, u.owner, u.x, u.range, g.PlayerOf(Enemy(u.owner)).base.x)
  }

  /** The turret phase of one player. When the decayed cooldown has run out
      and an enemy unit is strictly within 350 of the base, the nearest one
      loses the turret's damage, the player gains 0.15 experience per point
      of damage, the cooldown restarts and a 200 ms projectile is added;
      otherwise no unit, no experience and no projectile changes and the
      cooldown is the decayed one. */
  lemma TurretShot(g: Game, s: Slot, dt: real)
    ensures var p := g.PlayerOf(s); var r := PlayerPhase(g, s, dt);
      var cd := DecayTurretCooldown(p.base.turretCooldown, dt);
      var target := FindTurretTarget(g.units, Enemy(s), p.base.x);
      && |r.units| == |g.units|
      && (cd <= 0.0 && target.Some? ==>
            var j := target.value;
            var dmg := TurretDamage(p.turretLevel, p.era);
            && r.units[j].hp == g.units[j].hp - dmg as real
            && (forall k :: 0 <= k < |g.units| && k != j ==> r.units[k] == g.units[k])
            && r.PlayerOf(s).xp == p.xp + 0.15 * dmg as real
            && r.PlayerOf(s).base.turretCooldown == TurretCooldownAfterShot(p.turretLevel)
            && r.projectiles == g.projectiles + [Projectile(s, 200.0)])
      && (!(cd <= 0.0 && target.Some?) ==>
            && r.units == g.units
            && r.PlayerOf(s).xp == p.xp
            && r.projectiles == g.projectiles
            && r.PlayerOf(s).base.turretCooldown == cd)
  {
    var p := g.PlayerOf(s);
    var g1 := g.WithPlayer(s, Economy(p, dt));
    assert g1.units == g.units;
    assert g1.PlayerOf(s).base.x == p.base.x;
    assert g1.PlayerOf(s).base.turretCooldown == DecayTurretCooldown(p.base.turretCooldown, dt);
    assert g1.PlayerOf(s).xp == p.xp;
    assert PlayerPhase(g, s, dt) == TurretFire(g1, s);
  }

  /** A ready unit whose target is an enemy unit strikes it: the target
      loses the attacker's damage, the attacker's cooldown restarts, and its
      owner gains 0.15 experience per point of damage, plus a kill and 5
      experience when the target ends at or below zero hp. */
  lemma UnitStrikesItsTarget(g: Game, i: nat, dt: real)
    requires i < |g.units|
    requires TargetInStep(g, i, dt).UnitTarget?
    requires Prepared(g, i, dt).attackCooldown <= 0.0
    ensures var j := TargetInStep(g, i, dt).index;
      var s := g.units[i].owner; var r := UnitStep(g, i, dt);
      var dead := r.units[j].hp <= 0.0;
      && j < |g.units| && j != i
      && r.units[j].hp == g.units[j].hp - g.units[i].damage as real
      && r.units[i].attackCooldown == g.units[i].attackSpeed
      && r.PlayerOf(s).xp == g.PlayerOf(s).xp + 0.15 * g.units[i].damage as real + (if dead then 5.0 else 0.0)
      && r.PlayerOf(s).kills == g.PlayerOf(s).kills + (if dead then 1 else 0)
      && r.PlayerOf(Enemy(s)) == g.PlayerOf(Enemy(s))
  {
    var u := Prepared(g, i, dt);
    var g' := g.(units := g.units[i := u]);
    var j := TargetInStep(g, i, dt).index;
    assert FindTarget(g'.units, u.owner, u.x, u.range, g'.PlayerOf(Enemy(u.owner)).base.x) == UnitTarget(j);
    assert j != i;
    assert g'.units[j] == g.units[j];
    assert UnitStep(g, i, dt) == StrikeUnit(g', i, j);
  }

  /** With nothing in reach, a unit walks `speed * direction * dt / 16`. */
  lemma UnitMarchesWithoutTarget(g: Game, i: nat, dt: real)
    requires i < |g.units|
    requires TargetInStep(g, i, dt).NoTarget?
    ensures UnitStep(g, i, dt).units[i].x ==
      g.units[i].x + g.units[i].speed * g.units[i].direction as real * (dt / 16.0)
    ensures UnitStep(g, i, dt).p1 == g.p1 && UnitStep(g, i, dt).p2 == g.p2
  {
  }

  /** A unit whose target is the enemy base only earns its owner experience
      (a quarter of its damage); both bases keep their hp. */
  lemma BaseHitEarnsOnlyExperience(g: Game, i: nat, dt: real)
    requires i < |g.units|
    requires TargetInStep(g, i, dt).BaseTarget?
    requires Prepared(g, i, dt).attackCooldown <= 0.0
    ensures var s := g.units[i].owner; var r := UnitStep(g, i, dt);
      && r.PlayerOf(s).xp == g.PlayerOf(s).xp + g.units[i].damage as real * 0.25
      && r.PlayerOf(Enemy(s)) == g.PlayerOf(Enemy(s))
      && r.p1.base == g.p1.base && r.p2.base == g.p2.base
  {
  }

  /** Hitting a unit that is already at or below zero hp counts one more kill. */
  lemma RepeatKillCounts(g: Game, i: nat, dt: real)
    requires i < |g.units|
    requires TargetInStep(g, i, dt).UnitTarget?
    requires Prepared(g, i, dt).attackCooldown <= 0.0
    requires g.units[i].damage >= 0
    requires g.units[TargetInStep(g, i, dt).index].hp <= 0.0
    ensures var s := g.units[i].owner;
      UnitStep(g, i, dt).PlayerOf(s).kills == g.PlayerOf(s).kills + 1
  {
  }

  /** A turret shot never earns a kill, whatever it hits. */
  lemma TurretEarnsNoKills(g: Game, s: Slot, dt: real)
    ensures PlayerPhase(g, s, dt).PlayerOf(s).kills == g.PlayerOf(s).kills
    ensures PlayerPhase(g, s, dt).PlayerOf(Enemy(s)).kills == g.PlayerOf(Enemy(s)).kills
  {
  }

  // -----------------------------------------------------------------------
  // The pruning defect of the loop as written
  // -----------------------------------------------------------------------

  /** Two units in mid-lane, out of both turrets' range: a weak player 1
      unit at x = 500 that reaches nothing, and a player 2 unit at x = 510
      that reaches it and comes later in the list. */
  function CorpseScenario(): Game
  {
    var weak := Unit(0, 1, 500.0, 5.0, 5.0, 1, 1.0, 5.0, 1000.0, 0.0, 1, 0.0);
    var strong := Unit(1, 2, 510.0, 100.0, 100.0, 10, 1.0, 30.0, 1000.0, 0.0, -1, 0.0);
    CreateGameState(2).(units := [weak, strong])
  }

  /** In the scenario, the player 1 unit walks one pixel in its own
      iteration (so it is not marked), and the player 2 unit then kills it. */
  lemma CorpseScenarioLoop()
    ensures var g := CorpseScenario(); var (g3, marks) := Advance(g, 16.0);
      && marks == [false, false]
      && |g3.units| == 2
      && g3.units[0].hp == -5.0
      && g3.units[1].hp == 100.0
  {
    var g := CorpseScenario();
    var g1 := g.(gameTime := g.gameTime + 16.0);
    assert FindTurretTarget(g1.units, 2, 50.0) == None;
    assert FindTurretTarget(g1.units, 1, 950.0) == None;
    var gb := PlayerPhase(PlayerPhase(g1, 1, 16.0), 2, 16.0);
    assert gb.units == g.units;
    var ga := UnitStep(gb, 0, 16.0);
    assert ga.units[0].x == 501.0 && ga.units[0].hp == 5.0;
    assert ga.units[1] == g.units[1];
    var gc := UnitStep(ga, 1, 16.0);
    assert gc.units[0].hp == -5.0;
    assert gc.units[1].hp == 100.0;
    assert |ga.units| == 2 && |gc.units| == 2;
    assert UnitLoop(gc, 16.0, 2) == (gc, []);
    assert [false] + [] == [false];
    assert [false] + [false] == [false, false];
    assert UnitLoop(ga, 16.0, 1) == (gc, [false]);
    assert UnitLoop(gb, 16.0, 0) == (gc, [false, false]);
  }

  /** The scenario is a valid match in which the step as written leaves a
      unit with hp at or below zero on the lane, while the intended step
      removes it and keeps only the living unit. */
  lemma CorpseScenarioValid()
    ensures ValidGame(CorpseScenario())
  {
  }

  /** The step as written keeps both units; the first is at -5 hp. */
  lemma CorpseKeptAsWritten()
    ensures var r := UpdateGameAsWritten(CorpseScenario(), 16.0);
      |r.units| == 2 && r.units[0].hp <= 0.0
  {
    CorpseScenarioLoop();
    var g := CorpseScenario();
    var (g3, marks) := Advance(g, 16.0);
    var written := g3.(units := PruneMarked(g3.units, marks),
                       projectiles := AgeProjectiles(g3.projectiles, 16.0));
    assert UpdateGameAsWritten(g, 16.0) == WinCheck(written);
    assert PruneMarked(g3.units, marks) == g3.units;
  }

  /** The intended step keeps only the living player 2 unit. */
  lemma CorpseRemovedAsIntended()
    ensures var r := UpdateGame(CorpseScenario(), 16.0);
      |r.units| == 1 && r.units[0].id == 1 && r.units[0].hp == 100.0
  {
    CorpseScenarioLoop();
    var g := CorpseScenario();
    var (g3, marks) := Advance(g, 16.0);
    var intended := g3.(units := PruneDead(g3.units),
                        projectiles := AgeProjectiles(g3.projectiles, 16.0));
    assert UpdateGame(g, 16.0) == WinCheck(intended);
    assert PruneDead(g3.units) == [g3.units[1]];
  }

  lemma CorpseSurvivesPruneAsWritten()
    ensures ValidGame(CorpseScenario())
    ensures var r := UpdateGameAsWritten(CorpseScenario(), 16.0);
      |r.units| == 2 && r.units[0].hp <= 0.0
    ensures var r := UpdateGame(CorpseScenario(), 16.0);
      |r.units| == 1 && r.units[0].id == 1 && r.units[0].hp == 100.0
  {
    CorpseScenarioValid();
    CorpseKeptAsWritten();
    CorpseRemovedAsIntended();
  }
}

=== FILE: stat_scaling.dfy ===
/** The attack and health multipliers of `spawnUnit` as the server computes
    them, in binary64: `Math.floor(stat * (1 + (level - 1) * 0.15))`. The
    double nearest to 0.15 lies just below it, so at level 2 the product of
    a round stat and the multiplier 1.15 falls just short of the integer it
    should be and the floor loses one point. The rest of the model uses
    `Balance.ScaledStat`, the exact rule. */
module StatScaling {
  import opened Balance
  import opened Binary64

  /** The upgrade multiplier as a double: `1 + (level - 1) * 0.15`. */
  function MultiplierAsWritten(level: int): real
  {
    Add(1.0, Mul((level - 1) as real, Round(0.15)))
  }

  /** `Math.floor(stat * multiplier)` evaluated in binary64. */
  function ScaledStatAsWritten(v: int, level: int): int
  {
    Mul(v as real, MultiplierAsWritten(level)).Floor
  }

  /** 0.15 rounds down to `5404319552844595 / 2^55`. */
  lemma RoundedRate()
    ensures Round(0.15) == 5404319552844595.0 / 36028797018963968.0
  {
    assert Exponent(0.15) == -3;
    assert Ulp(0.15) == Pow2(-55);
    Pow2Values();
  }

  /** Eight halvings at once, below zero. */
  lemma Pow2Down8(n: int)
    requires n <= 0
    ensures Pow2(n - 8) == Pow2(n) / 256.0
  {
    assert Pow2(n - 1) == Pow2(n) / 2.0;
    assert Pow2(n - 2) == Pow2(n - 1) / 2.0;
    assert Pow2(n - 3) == Pow2(n - 2) / 2.0;
    assert Pow2(n - 4) == Pow2(n - 3) / 2.0;
    assert Pow2(n - 5) == Pow2(n - 4) / 2.0;
    assert Pow2(n - 6) == Pow2(n - 5) / 2.0;
    assert Pow2(n - 7) == Pow2(n - 6) / 2.0;
    assert Pow2(n - 8) == Pow2(n - 7) / 2.0;
  }

  /** The powers of two the computations below meet. */
  lemma Pow2Values()
    ensures Pow2(-55) == 1.0 / 36028797018963968.0
    ensures Pow2(-52) == 1.0 / 4503599627370496.0
    ensures Pow2(-46) == 1.0 / 70368744177664.0
    ensures Pow2(-45) == 1.0 / 35184372088832.0
    ensures Pow2(-44) == 1.0 / 17592186044416.0
  {
    Pow2Down8(0);
    Pow2Down8(-8);
    Pow2Down8(-16);
    Pow2Down8(-24);
    Pow2Down8(-32);
    Pow2Down8(-40);
    assert Pow2(-44) == Pow2(-40) / 16.0 by {
      assert Pow2(-41) == Pow2(-40) / 2.0;
      assert Pow2(-42) == Pow2(-41) / 2.0;
      assert Pow2(-43) == Pow2(-42) / 2.0;
      assert Pow2(-44) == Pow2(-43) / 2.0;
    }
    assert Pow2(-45) == Pow2(-44) / 2.0;
    assert Pow2(-46) == Pow2(-45) / 2.0;
    Pow2Down8(-44);
    assert Pow2(-53) == Pow2(-52) / 2.0;
    assert Pow2(-54) == Pow2(-53) / 2.0;
    assert Pow2(-55) == Pow2(-54) / 2.0;
  }

  /** At level 2 the multiplier is the double just below 1.15:
      `5179139571476070 / 2^52`. */
  lemma LevelTwoMultiplier()
    ensures MultiplierAsWritten(2) == 5179139571476070.0 / 4503599627370496.0
  {
    RoundedRate();
    Pow2Values();
    var c := 5404319552844595.0 / 36028797018963968.0;
    assert Exponent(c) == -3;
    assert c / Ulp(c) == 5404319552844595.0;
    assert Mul(1.0, c) == c;
    var s := 1.0 + c;
    assert Exponent(s) == 0;
    assert s / Ulp(s) == 5179139571476070.375;
    assert NearestEven(5179139571476070.375) == 5179139571476070;
  }

  /** Rounding a positive real whose binade and position in ulps are known. */
  lemma RoundKnownBinade(x: real, e: int, u: real, q: real)
    requires x > 0.0 && Pow2(e) <= x < Pow2(e + 1)
    requires u == Pow2(e - 52) && x / u == q
    ensures Round(x) == NearestEven(q) as real * u
  {
    ExponentUnique(x, e);
    assert Ulp(x) == u;
    assert Round(x) == RoundPositive(x);
    assert RoundPositive(x) == NearestEven(x / Ulp(x)) as real * Ulp(x);
  }

  /** Powers of two from 2^6 to 2^9. */
  lemma Pow2Up(e: int)
    requires 6 <= e <= 8
    ensures Pow2(e) == (if e == 6 then 64.0 else if e == 7 then 128.0 else 256.0)
    ensures Pow2(e + 1) == 2.0 * Pow2(e)
  {
    assert Pow2(6) == 64.0;
    assert Pow2(7) == 128.0;
    assert Pow2(8) == 256.0;
    assert Pow2(9) == 512.0;
  }

  /** The binade of a positive real is unique. */
  lemma ExponentUnique(x: real, e: int)
    requires x > 0.0 && Pow2(e) <= x < Pow2(e + 1)
    ensures Exponent(x) == e
  {
    var f := Exponent(x);
    if f < e {
      Pow2Monotone(f + 1, e);
    } else if f > e {
      Pow2Monotone(e + 1, f);
    }
  }

  lemma {:induction false} Pow2Monotone(a: int, b: int)
    requires a <= b
    ensures Pow2(a) <= Pow2(b)
    decreases b - a
  {
    if a < b {
      Pow2Monotone(a + 1, b);
      Pow2Succ(a);
    }
  }

  lemma LevelTwoHp100()
    ensures ScaledStatAsWritten(100, 2) == 114
  {
    Pow2Values();
    LevelTwoMultiplier();
    Pow2Up(6);
    var m := MultiplierAsWritten(2);
    assert NearestEven(8092405580431359.375) == 8092405580431359;
    RoundKnownBinade(100.0 * m, 6, Pow2(-46), 8092405580431359.375);
  }

  lemma LevelTwoHp200()
    ensures ScaledStatAsWritten(200, 2) == 229
  {
    Pow2Values();
    LevelTwoMultiplier();
    Pow2Up(7);
    var m := MultiplierAsWritten(2);
    assert NearestEven(8092405580431359.375) == 8092405580431359;
    RoundKnownBinade(200.0 * m, 7, Pow2(-45), 8092405580431359.375);
  }

  lemma LevelTwoHp400()
    ensures ScaledStatAsWritten(400, 2) == 459
  {
    Pow2Values();
    LevelTwoMultiplier();
    Pow2Up(8);
    var m := MultiplierAsWritten(2);
    assert NearestEven(8092405580431359.375) == 8092405580431359;
    RoundKnownBinade(400.0 * m, 8, Pow2(-44), 8092405580431359.375);
  }

  /** The finding: at level 2 the server floors 114.99999999999999 to 114
      for a 100 hp unit (a swordsman, cannoneer or soldier), 229 for the
      200 hp knight and 459 for the 400 hp tank, where the exact rule gives
      115, 230 and 460. */
  lemma LevelTwoLosesAPoint()
    ensures ScaledStatAsWritten(100, 2) == 114 && ScaledStat(100, 2) == 115
    ensures ScaledStatAsWritten(200, 2) == 229 && ScaledStat(200, 2) == 230
    ensures ScaledStatAsWritten(400, 2) == 459 && ScaledStat(400, 2) == 460
  {
    LevelTwoHp100();
    LevelTwoHp200();
    LevelTwoHp400();
  }
}

=== FILE: state.dfy ===
/** The match record one room owns: two players with their bases, the
    ordered unit list, the projectile list, the clock and the outcome.
    This is `createGameState` / `createPlayerState` in server.js, plus the
    invariant every operation of the match preserves. */
module State {
  import opened Common
  import opened Balance

  /** A player number: the room assigns 1 to the first connection and 2 to
      the second. */
  type Slot = n: int | n == 1 || n == 2 witness 1

  function Enemy(s: Slot): (e: Slot)
    ensures e != s
  {
    if s == 1 then 2 else 1
  }

  /** Lane direction of a player's units: player 1 marches right, player 2 left. */
  function DirectionOf(s: Slot): int
  {
    if s == 1 then 1 else -1
  }

  datatype Base = Base(hp: real, maxHp: real, x: real, turretCooldown: real)

  datatype Player = Player(
    num: Slot,
    gold: real,
    xp: real,
    era: EraIndex,
    income: real,
    base: Base,
    turretLevel: nat,
    incomeLevel: nat,
    baseHpLevel: nat,
    attackLevel: nat,
    healthLevel: nat,
    regenLevel: nat,
    specialCooldown: real,
    kills: nat)

  /** A unit on the lane. Its display name, colour, size and constant `y`
      are left out. */
  datatype Unit = Unit(
    id: nat,
    owner: Slot,
    x: real,
    hp: real,
    maxHp: real,
    damage: int,
    speed: real,
    range: real,
    attackSpeed: real,
    attackCooldown: real,
    direction: int,
    regen: real)

  /** A turret shot's trace; its screen coordinates are left out, only the
      remaining life matters. */
  datatype Projectile = Projectile(owner: Slot, life: real)

  /** The match. `nextUnitId` is the server-wide unit id counter, threaded
      through the match it is used by. */
  datatype Game = Game(
    p1: Player,
    p2: Player,
    units: seq<Unit>,
    projectiles: seq<Projectile>,
    gameTime: real,
    winner: Option<Slot>,
    paused: bool,
    nextUnitId: nat)
  {
    /** `game.players[s]` */
    function PlayerOf(s: Slot): Player
    {
      if s == 1 then p1 else p2
    }

    /** The same match with player `s` replaced. */
    function WithPlayer(s: Slot, p: Player): (g: Game)
      ensures g.PlayerOf(s) == p
      ensures g.PlayerOf(Enemy(s)) == PlayerOf(Enemy(s))
      ensures g.units == units && g.projectiles == projectiles
      ensures g.gameTime == gameTime && g.winner == winner
      ensures g.paused == paused && g.nextUnitId == nextUnitId
    {
      if s == 1 then this.(p1 := p) else this.(p2 := p)
    }
  }

  /** `createPlayerState(playerNum)` */
  function CreatePlayerState(num: Slot): Player
  {
    Player(
      num := num,
      gold := StartGold,
      xp := 0.0,
      era := 0,
      income := BaseIncome,
      base := Base(BaseHp, BaseHp, if num == 1 then Player1BaseX else Player2BaseX, 0.0),
      turretLevel := 1,
      incomeLevel := 1,
      baseHpLevel := 1,
      attackLevel := 1,
      healthLevel := 1,
      regenLevel := 0,
      specialCooldown := 0.0,
      kills := 0)
  }

  /** `createGameState()`, with the current value of the server-wide id
      counter passed in. */
  function CreateGameState(nextUnitId: nat): Game
  {
    Game(CreatePlayerState(1), CreatePlayerState(2), [], [], 0.0, None, false, nextUnitId)
  }

  // -----------------------------------------------------------------------
  // The match invariant
  // -----------------------------------------------------------------------

  /** A player record as the commands and the simulation keep it: levels
      within their ranges (regen from 0, the rest from 1), income and base
      max hp determined by their levels, gold and cooldown never negative,
      base hp never above its maximum, base at its own end of the lane. */
  ghost predicate ValidPlayer(p: Player, num: Slot)
  {
    && p.num == num
    && 1 <= p.turretLevel <= MaxUpgradeLevel
    && 1 <= p.incomeLevel <= MaxUpgradeLevel
    && 1 <= p.baseHpLevel <= MaxUpgradeLevel
    && 1 <= p.attackLevel <= MaxUnitUpgradeLevel
    && 1 <= p.healthLevel <= MaxUnitUpgradeLevel
    && 0 <= p.regenLevel <= MaxUnitUpgradeLevel
    && p.income == IncomeFor(p.incomeLevel)
    && p.gold >= 0.0
    && p.xp >= 0.0
    && p.specialCooldown >= 0.0
    && p.base.maxHp == BaseHp + (p.baseHpLevel - 1) as real * BaseHpPerUpgrade
    && p.base.hp <= p.base.maxHp
    && p.base.x == (if num == 1 then Player1BaseX else Player2BaseX)
  }

  /** A unit as spawning creates it and combat keeps it. */
  ghost predicate ValidUnit(u: Unit)
  {
    && u.hp <= u.maxHp
    && u.damage >= 0
    && u.regen >= 0.0
    && u.attackSpeed > 0.0
    && u.direction == DirectionOf(u.owner)
  }

  /** Unit ids increase along the unit list and stay below the counter, so
      they are unique and never handed out again. */
  ghost predicate IdsIncreasing(units: seq<Unit>, next: nat)
  {
    && (forall i, j :: 0 <= i < j < |units| ==> units[i].id < units[j].id)
    && (forall i :: 0 <= i < |units| ==> units[i].id < next)
  }

  ghost predicate ValidGame(g: Game)
  {
    && ValidPlayer(g.p1, 1)
    && ValidPlayer(g.p2, 2)
    && (forall i :: 0 <= i < |g.units| ==> ValidUnit(g.units[i]))
    && IdsIncreasing(g.units, g.nextUnitId)
  }

  /** A fresh match satisfies the invariant and starts both players with 50
      gold, no experience, the first era and 1500 base hp, regen at level 0
      and every other upgrade at level 1, and has no units, no projectiles,
      no elapsed time, no winner and no pause. */
  lemma CreateGameStateValid(nextUnitId: nat)
    ensures ValidGame(CreateGameState(nextUnitId))
    ensures forall s: Slot :: CreateGameState(nextUnitId).PlayerOf(s).gold == 50.0
    ensures forall s: Slot :: CreateGameState(nextUnitId).PlayerOf(s).era == 0
    ensures forall s: Slot :: CreateGameState(nextUnitId).PlayerOf(s).xp == 0.0
    ensures forall s: Slot :: CreateGameState(nextUnitId).PlayerOf(s).base.hp == 1500.0
    ensures CreateGameState(nextUnitId).units == []
    ensures CreateGameState(nextUnitId).projectiles == []
    ensures forall s: Slot :: CreateGameState(nextUnitId).PlayerOf(s).regenLevel == 0
    ensures forall s: Slot ::
      var p := CreateGameState(nextUnitId).PlayerOf(s);
      && p.turretLevel == 1 && p.incomeLevel == 1 && p.baseHpLevel == 1
      && p.attackLevel == 1 && p.healthLevel == 1
    ensures CreateGameState(nextUnitId).gameTime == 0.0
    ensures !CreateGameState(nextUnitId).paused
    ensures CreateGameState(nextUnitId).winner == None
  {
  }
}

=== FILE: targeting.dfy ===
/** Target selection: `findTurretTarget` (the nearest enemy unit strictly
    inside turret range, earliest on ties) and `findTarget` (the first enemy
    unit in list order within the attacker's range, else the enemy base if
    it is in range). Both read the unit list only; neither looks at hp, so
    units already at or below zero hp are still found. */
module Targeting {
  import opened Common
  import opened Balance
  import opened State

  /** Lane distance between two positions. */
  function Dist(a: real, b: real): real
  {
    Abs(a - b)
  }

  // -----------------------------------------------------------------------
  // Turret targeting
  // -----------------------------------------------------------------------

  /** Unit `k` is one the turret at `baseX` may shoot: an enemy strictly
      closer than the turret range. */
  ghost predicate TurretCandidate(units: seq<Unit>, enemy: Slot, baseX: real, k: int)
    requires 0 <= k < |units|
  {
    units[k].owner == enemy && Dist(units[k].x, baseX) < TurretRange
  }

  /** Unit `j` is the turret's choice: a candidate no other candidate is
      closer than, and strictly closer than every earlier candidate. */
  ghost predicate TurretChoice(units: seq<Unit>, enemy: Slot, baseX: real, j: int)
    requires 0 <= j < |units|
  {
    && TurretCandidate(units, enemy, baseX, j)
    && forall k :: 0 <= k < |units| && TurretCandidate(units, enemy, baseX, k) ==>
         Dist(units[j].x, baseX) <= Dist(units[k].x, baseX)
         && (k < j ==> Dist(units[j].x, baseX) < Dist(units[k].x, baseX))
  }

  /** The scan loop of `findTurretTarget` from index `k` on, with the best
      unit so far and its distance (the range itself while none is found). */
  function NearestFrom(units: seq<Unit>, enemy: Slot, baseX: real, k: nat,
                       best: Option<nat>, bestDist: real): (r: Option<nat>)
    requires k <= |units|
    requires best.None? ==> (
      && bestDist == TurretRange
      && forall j :: 0 <= j < k ==> !TurretCandidate(units, enemy, baseX, j))
    requires best.Some? ==> (
      && best.value < k
      && TurretCandidate(units, enemy, baseX, best.value)
      && bestDist == Dist(units[best.value].x, baseX)
      && forall j :: 0 <= j < k && TurretCandidate(units, enemy, baseX, j) ==>
           bestDist <= Dist(units[j].x, baseX) && (j < best.value ==> bestDist < Dist(units[j].x, baseX)))
    ensures r.Some? ==> r.value < |units| && TurretChoice(units, enemy, baseX, r.value)
    ensures r.None? ==> forall j :: 0 <= j < |units| ==> !TurretCandidate(units, enemy, baseX, j)
    decreases |units| - k
  {
    if k == |units| then best
    else
      var d := Dist(units[k].x, baseX);
      if units[k].owner == enemy && d < bestDist then NearestFrom(units, enemy, baseX, k + 1, Some(k), d)
      else NearestFrom(units, enemy, baseX, k + 1, best, bestDist)
  }

  /** `findTurretTarget(game, player, enemyNum)`: the index of the unit the
      turret at `baseX` fires at, if any. */
  function FindTurretTarget(units: seq<Unit>, enemy: Slot, baseX: real): (r: Option<nat>)
    ensures r.Some? ==> r.value < |units| && TurretChoice(units, enemy, baseX, r.value)
    ensures r.None? <==> forall j :: 0 <= j < |units| ==> !TurretCandidate(units, enemy, baseX, j)
  {
    NearestFrom(units, enemy, baseX, 0, None, TurretRange)
  }

  // -----------------------------------------------------------------------
  // Unit targeting
  // -----------------------------------------------------------------------

  /** Unit `k` is an enemy within `range` of position `x` (inclusive). */
  ghost predicate InReach(units: seq<Unit>, enemy: Slot, x: real, range: real, k: int)
    requires 0 <= k < |units|
  {
    units[k].owner == enemy && Dist(units[k].x, x) <= range
  }

  /** The first enemy in list order from index `k` on that is within reach. */
  function FirstInReach(units: seq<Unit>, enemy: Slot, x: real, range: real, k: nat): (r: Option<nat>)
    requires k <= |units|
    ensures r.Some? ==> (
      && k <= r.value < |units|
      && InReach(units, enemy, x, range, r.value)
      && forall j :: k <= j < r.value ==> !InReach(units, enemy, x, range, j))
    ensures r.None? ==> forall j :: k <= j < |units| ==> !InReach(units, enemy, x, range, j)
    decreases |units| - k
  {
    if k == |units| then None
    else if units[k].owner == enemy && Dist(units[k].x, x) <= range then Some(k)
    else FirstInReach(units, enemy, x, range, k + 1)
  }

  /** What a unit attacks: an enemy unit (by index), the enemy base, or nothing. */
  datatype Target = NoTarget | UnitTarget(index: nat) | BaseTarget

  /** `findTarget(game, unit, enemyNum, enemyBase)` for a unit of `owner` at
      `x` with reach `range`, the enemy base standing at `enemyBaseX`. */
  function FindTarget(units: seq<Unit>, owner: Slot, x: real, range: real, enemyBaseX: real): (t: Target)
    ensures t.UnitTarget? <==>
      exists j :: 0 <= j < |units| && InReach(units, Enemy(owner), x, range, j)
    ensures t.UnitTarget? ==> (
      && t.index < |units|
      && InReach(units, Enemy(owner), x, range, t.index)
      && forall j :: 0 <= j < t.index ==> !InReach(units, Enemy(owner), x, range, j))
    ensures t.BaseTarget? <==>
      (forall j :: 0 <= j < |units| ==> !InReach(units, Enemy(owner), x, range, j))
      && Dist(x, enemyBaseX) <= range
    ensures t.NoTarget? <==>
      (forall j :: 0 <= j < |units| ==> !InReach(units, Enemy(owner), x, range, j))
      && Dist(x, enemyBaseX) > range
  {
    match FirstInReach(units, Enemy(owner), x, range, 0)
    case Some(j) => UnitTarget(j)
    case None => if Dist(x, enemyBaseX) <= range then BaseTarget else NoTarget
  }

  /** Targeting never looks at hp: changing a unit's hp (killing it, say)
      changes neither the turret's nor any unit's choice. This is why units
      already dead still draw fire until they are pruned. */
  lemma TargetingIgnoresHp(units: seq<Unit>, i: nat, hp: real, owner: Slot, x: real,
                           range: real, enemyBaseX: real, enemy: Slot, baseX: real)
    requires i < |units|
    ensures FindTarget(units[i := units[i].(hp := hp)], owner, x, range, enemyBaseX)
         == FindTarget(units, owner, x, range, enemyBaseX)
    ensures FindTurretTarget(units[i := units[i].(hp := hp)], enemy, baseX)
         == FindTurretTarget(units, enemy, baseX)
  {
    var units' := units[i := units[i].(hp := hp)];
    assert forall k :: 0 <= k < |units| ==> units'[k].x == units[k].x && units'[k].owner == units[k].owner;
    assert forall k :: 0 <= k < |units| ==>
      (InReach(units', Enemy(owner), x, range, k) <==> InReach(units, Enemy(owner), x, range, k));
    assert forall k :: 0 <= k < |units| ==>
      (TurretCandidate(units', enemy, baseX, k) <==> TurretCandidate(units, enemy, baseX, k));
    TurretChoiceUnique(units, enemy, baseX);
    TurretChoiceUnique(units', enemy, baseX);
  }

  /** At most one unit satisfies `TurretChoice`. */
  lemma TurretChoiceUnique(units: seq<Unit>, enemy: Slot, baseX: real)
    ensures forall a, b ::
      (0 <= a < |units| && 0 <= b < |units| &&
       TurretChoice(units, enemy, baseX, a) && TurretChoice(units, enemy, baseX, b)) ==> a == b
  {
  }
}
